=== FILE: README.md ===
# Pan-tilt actuator control path, in Dafny

This project models how the detection pipeline of the repository points its
pan-tilt camera at a target. It covers three parts.

1. **The register protocol of the Arducam controller.** This is the
   `Focuser` class of `angular_calculation_tester/Focuser.py`.
   - The option table gives each option a register, a value range and an
     optional reset register. The options are FOCUS, ZOOM, MOTOR_X,
     MOTOR_Y, IRCUT and MODE.
   - `read` and `write` swap the two bytes of each 16-bit word.
   - `write` turns a negative value into 0.
   - `set` clamps a value into the option's range.
   - `isBusy` polls the busy register, 0x04.
   - `waitingForFree` sleeps 10 ms after each busy reading, at most 500 times,
     so it reads the busy register at most 501 times.
   - `reset` waits for the chip. For FOCUS and ZOOM it then writes 0 to
     the option's reset register and sets the option to its minimum; for
     every other option it returns after that first wait.
2. **The camera-to-actuator mapping `angle2PTZ`.** It is defined in
   `detectnet.py`, and `angular_calculation_tester/angle_calculator.py`
   holds an identical copy. The mapping works like this:
   - a direction with positive azimut gets a pan of 180 − azimut and a tilt
     of 180 − elevation;
   - any other direction gets a pan of −azimut and a tilt equal to the
     elevation;
   - both values are truncated toward zero, then written with `set`:
     MOTOR_X first with the pan, then MOTOR_Y with the tilt.
3. **The two control loops.**
   - `main_loop` in `detectnet.py` builds one angles list per captured
     frame. On every 10th captured frame, with PTZ support on, it sends the
     first detection's angles.
   - The `angle_calculator.py` tester sends the mouse cursor's angles on
     every 3rd frame.
   - Both loops set MODE to 1 once, before they start.

The device is a `Focuser` object with the following parts:
- a map from register address to the 16-bit word it holds, in the device's
  byte order (the type `BusWord`);
- a log of every word written, and beside it, for each write, the number
  of busy-register reads taken before it (its stamp). With the script,
  stamps place each write between the waits around it;
- a script of the words its successive busy-register reads return. A read
  past the end of the script returns 0, meaning free;
- counters of busy-register reads and of 10 ms sleeps.

`AfterWaits(script, from, n)` is the read count after `n` whole waits that
start after read `from`. Every contract below that counts waits says
exactly where they end in the script.

The projection functions `get_elevation` and `get_azimut` are parameters
of the model. The same goes for the frames the video source yields, their
detections and the cursor positions.

Modules:
- `FocuserDriver` (`focuser.dfy`): words, the option table, polling, and the
  `Focuser` class.
- `Pointing` (`pointing.dfy`): angles, truncation, the mapping and
  `Angle2PTZ`.
- `Throttle` (`throttle.dfy`): the `CYCLE`/`CYCLE_LOOP` counter and the
  iterations it lets through.
- `Detectnet` (`detectnet.dfy`): `main_loop`.
- `AngleCalculator` (`tester.dfy`): the tester's loop.

## Model

| member | source | states |
|---|---|---|
| FocuserDriver.LowByte | angular_calculation_tester/Focuser.py:115 | the masked low byte is below 0x100 |
| FocuserDriver.HighByte | angular_calculation_tester/Focuser.py:115 | the masked and shifted high byte is below 0x100 |
| FocuserDriver.SwapBytes | angular_calculation_tester/Focuser.py:115 | the swapped word always lies in [0, 0xFFFF]: bits above 16 are dropped |
| FocuserDriver.SwapBytesExchanges | angular_calculation_tester/Focuser.py:115 | the swap exchanges the high and low bytes |
| FocuserDriver.WordIsItsBytes | angular_calculation_tester/Focuser.py:115 | a 16-bit word is its high byte times 0x100 plus its low byte |
| FocuserDriver.SwapBytesInvolution | angular_calculation_tester/Focuser.py:115-121 | swapping twice gives back any word in [0, 0xFFFF] |
| FocuserDriver.Decode | angular_calculation_tester/Focuser.py:113-116 | the value `read` returns lies in [0, 0xFFFF] |
| FocuserDriver.Encode | angular_calculation_tester/Focuser.py:118-122 | the word `write` sends is a 16-bit word, and 0 for a value of 0 or below |
| FocuserDriver.EncodeDecode | angular_calculation_tester/Focuser.py:113-122 | `write` then `read` of a register gives back a written value below 0x10000 when it is non-negative, and 0 when it was negative |
| FocuserDriver.EncodeKeepsLow16Bits | angular_calculation_tester/Focuser.py:121 | only the low 16 bits of a value reach the device, and they are what reads back |
| FocuserDriver.BusyWordIffReadNonZero | angular_calculation_tester/Focuser.py:140-141 | `isBusy` says busy exactly when the 16-bit word read from the busy register is not zero: the byte swap maps only the zero word to 0 |
| FocuserDriver.Info | angular_calculation_tester/Focuser.py:66-103 | every option has 0 <= MIN_VALUE <= MAX_VALUE < 0x10000 and a register other than the busy register; FOCUS and ZOOM, and only they, have a reset register, at REG_ADDR + 0x0A |
| FocuserDriver.RegistersDistinct | angular_calculation_tester/Focuser.py:66-103 | distinct options have distinct registers, and no reset register is an option's value register |
| FocuserDriver.Clamp | angular_calculation_tester/Focuser.py:131-135 | the value `set` writes lies in the option's range, and is the requested value when that is already in range |
| FocuserDriver.ClampIsNearest | angular_calculation_tester/Focuser.py:131-135 | no value of the range is closer to the request than the clamped one |
| FocuserDriver.SetGetRoundTrip | angular_calculation_tester/Focuser.py:124-136 | the word `set` stores decodes to the clamped value |
| FocuserDriver.ZoomExamples | angular_calculation_tester/Focuser.py:73-78 | `set(ZOOM, 99999)` stores 20000 and `set(ZOOM, 0)` stores 3000 |
| FocuserDriver.BusyRun | angular_calculation_tester/Focuser.py:143-148 | the number of busy reads before the wait ends never exceeds the budget |
| FocuserDriver.BusyRunIsLongestBusyPrefix | angular_calculation_tester/Focuser.py:146 | every read counted was busy, and unless the budget ran out the next read was free: the wait stops at the first free reading |
| FocuserDriver.AlwaysBusyUsesBudget | angular_calculation_tester/Focuser.py:146 | a device that stays busy makes the wait use its whole budget and then return |
| FocuserDriver.ScriptWord | angular_calculation_tester/Focuser.py:140-141 | the word the n-th busy-register read returns: the n-th scripted 16-bit word, and 0 (free) once the script is used up |
| FocuserDriver.AfterWaitsAdd | angular_calculation_tester/Focuser.py:143-148 | m whole waits followed by n whole waits end where m + n whole waits do |
| FocuserDriver.AfterWaitsGrows | angular_calculation_tester/Focuser.py:143-148 | every wait reads the busy register at least once, so n whole waits end at least n - m reads after m of them |
| FocuserDriver.WaitEndsAtFreeRead | angular_calculation_tester/Focuser.py:143-148 | a wait ends with the first read that says free, or after 500 sleeps; every read before that one said busy |
| FocuserDriver.ApplyWrites | angular_calculation_tester/Focuser.py:118-122 | the register map after a run of `write_word_data` calls, applied in order |
| FocuserDriver.ApplyWritesAppend | angular_calculation_tester/Focuser.py:118-122 | two runs of writes applied one after the other give the map of the concatenated run |
| FocuserDriver.ApplyWritesElsewhere | angular_calculation_tester/Focuser.py:118-122 | a register that no write addresses keeps its word, or stays absent |
| FocuserDriver.ApplyWritesLast | angular_calculation_tester/Focuser.py:118-122 | after a run of writes, the register of the last write holds that write's word |
| FocuserDriver.Focuser.constructor | angular_calculation_tester/Focuser.py:106-111 | a new handle over a device with the given registers and busy script; nothing written, read or slept yet |
| FocuserDriver.Focuser.Word | angular_calculation_tester/Focuser.py:113-116 | the 16-bit word `read_word_data` returns for a register other than the busy register; a register absent from the map reads as 0 |
| FocuserDriver.Focuser.Read | angular_calculation_tester/Focuser.py:113-116 | reading the busy register consumes one scripted word; reading any other register returns the byte-swapped stored word; nothing else changes |
| FocuserDriver.Focuser.Write | angular_calculation_tester/Focuser.py:118-122 | exactly the target register now holds the encoded value; the write is appended to the log and stamped with the number of busy-register reads taken so far |
| FocuserDriver.Focuser.IsBusy | angular_calculation_tester/Focuser.py:140-141 | true exactly when the next busy-register read is non-zero; one read is consumed |
| FocuserDriver.Focuser.Sleep | angular_calculation_tester/Focuser.py:148 | one more 10 ms sleep; nothing else changes |
| FocuserDriver.Focuser.WaitingForFree | angular_calculation_tester/Focuser.py:143-148 | the wait always returns; it takes BusyRun sleeps (at most 500) and one more read than sleeps (at most 501), ending at AfterWaits(script, from, 1); registers, log and stamps are unchanged |
| FocuserDriver.Focuser.Get | angular_calculation_tester/Focuser.py:124-127 | returns the decoded word of the option's register after exactly one whole wait: the read count ends at AfterWaits(script, from, 1), at most 500 sleeps; no register changes |
| FocuserDriver.Focuser.Set | angular_calculation_tester/Focuser.py:129-138 | only the option's register changes, to the encoded clamped value, logged once and stamped after exactly one whole wait; the reads end after exactly Waits(flag) whole waits, the second one following the write when bit 0 of `flag` is set, so at most 500 or 1000 sleeps |
| FocuserDriver.Focuser.Reset | angular_calculation_tester/Focuser.py:150-158 | options without a reset register: exactly one whole wait and no write; FOCUS and ZOOM: 0 to the reset register, stamped after one whole wait, then MIN_VALUE to the value register, stamped after two, with 2 + Waits(flag) whole waits in all |
| FocuserDriver.ResetWaits | angular_calculation_tester/Focuser.py:150-158 | the wait of `reset`, the two waits of its `set` and the optional last wait make 2 + Waits(flag) whole waits, with one more read than sleeps per wait |
| FocuserDriver.Waits | angular_calculation_tester/Focuser.py:137-138 | `set` waits once or twice, twice exactly when bit 0 of `flag` is set |
| FocuserDriver.MinimumIsInRange | angular_calculation_tester/Focuser.py:156 | the minimum `reset` asks for is in range, so `set` stores MIN_VALUE unchanged |
| FocuserDriver.SetThenGet | angular_calculation_tester/Focuser.py:124-138 | `set` then `get` of an option returns the clamped value, so MAX_VALUE for an over-range request |
| Pointing.Project | detectnet.py:105-108 | a detection's angles are `get_elevation` and `get_azimut` at its centre |
| Pointing.ProjectAll | detectnet.py:104-108 | one angles pair per pixel |
| Pointing.ProjectAllAt | detectnet.py:104-108 | the i-th angles are the projection of the i-th pixel, in detection order |
| Pointing.Trunc | detectnet.py:72-73 | `int()` truncates toward zero: non-negative inputs round down to a non-negative integer, negative ones round up |
| Pointing.ToActuator | detectnet.py:63-68 | for an azimut in ]−180, 180] the pan lies in [0, 180); for an elevation in [0, 180] the tilt lies in [0, 180] |
| Pointing.OppositeHalvesShareThePan | detectnet.py:63-68 | azimuts half a turn apart get the same pan, with tilts mirrored about 90 |
| Pointing.ToActuatorExamples | detectnet.py:63-68 | (el 30, az 45) gives (135, 150); (el 30, az −45) gives (45, 30); (el 90, az 0) gives (0, 90) |
| Pointing.MotorValues | detectnet.py:72-73 | for an azimut in ]−180, 180] the truncated pan lies in [0, 180) |
| Pointing.PanIsNeverClamped | detectnet.py:63-72 | for an azimut in ]−180, 180] the MOTOR_X clamp never alters the pan |
| Pointing.DispatchWrites | detectnet.py:72-73 | a dispatch writes two words: MOTOR_X's register first, then MOTOR_Y's |
| Pointing.DispatchReadsBack | detectnet.py:72-73 | the motor registers read back the truncated pan and tilt clamped into [0, 180], and the pan unclamped for an azimut in ]−180, 180] |
| Pointing.AllDispatchWrites | detectnet.py:72-73 | a run of dispatches writes two words per target, in order |
| Pointing.DispatchLogStep | detectnet.py:111-114 | a log holding the writes of the earlier dispatches, extended by one optional dispatch, holds the writes of the extended list of targets |
| Pointing.ApplyDispatch | detectnet.py:72-73 | applying a dispatch sets the MOTOR_X register, then the MOTOR_Y register |
| Pointing.DispatchRegsStep | detectnet.py:111-114 | a register map holding the earlier dispatches' writes, updated by one optional dispatch, holds the writes of the extended list of targets |
| Pointing.DispatchesLeaveOtherRegisters | detectnet.py:72-73 | every register other than MOTOR_X and MOTOR_Y keeps its word, or stays absent, through any number of dispatches |
| Pointing.LastTargetWins | detectnet.py:72-73 | after a non-empty run of dispatches the MOTOR_X and MOTOR_Y registers hold the words of the last target |
| Pointing.WritesWaitedApart | detectnet.py:72-73 | in a run of dispatches, write j comes at least 2 * (j - i) busy reads after an earlier write i: two whole waits separate consecutive writes |
| Pointing.AllDispatchStampsStep | detectnet.py:72-73 | one more dispatch adds the two stamps DispatchStamps gives it, after four whole waits per earlier dispatch |
| Pointing.DispatchWaitsStep | detectnet.py:111-114 | stamps and read count after n dispatches, extended by one dispatch as Angle2PTZ states, are those of n + 1 dispatches |
| Pointing.DeviceStep | detectnet.py:111-114 | one loop iteration, with or without a dispatch, keeps the loop's device state: log and registers hold exactly the dispatched writes, each stamped as AllDispatchStamps says, exactly four whole waits per dispatch and at most 2000 sleeps per dispatch |
| Pointing.ModeOn | detectnet.py:77 | the MODE write that precedes a control loop reads back as 1 |
| Pointing.ModeThenDispatches | detectnet.py:75-80 | MODE set to 1 with `set`'s default flag, then a loop's dispatches: the log and the registers hold the MODE write followed by the dispatches' writes; the MODE write is stamped after one whole wait, the dispatches start after the two waits of that `set`, and at most 1000 more sleeps are taken |
| Pointing.ModeThenDispatchWaits | detectnet.py:75-80 | the two waits of the MODE `set` followed by a loop's waits are 2 + n whole waits |
| Pointing.ModeStaysOn | detectnet.py:77 | after MODE is set to 1 and any number of dispatches, the MODE register still reads 1 |
| Pointing.DispatchesTouchOnlyMotors | detectnet.py:72-73 | dispatches write only to the MOTOR_X and MOTOR_Y registers |
| Pointing.Angle2PTZ | detectnet.py:62-73 | appends exactly the two writes of the mapped, truncated, clamped angles to the log, in order, and applies them to the register map; MOTOR_X is written after one whole wait and MOTOR_Y after three (DispatchStamps), four whole waits in all, at most 2000 sleeps |
| Pointing.TwoSetsWaits | detectnet.py:72-73 | two `set` calls with the default flag take four whole waits, with MOTOR_X stamped after the first and MOTOR_Y after the third |
| Throttle.CycleCounter.constructor | detectnet.py:79-80 | CYCLE starts at 0 |
| Throttle.CycleCounter.Tick | detectnet.py:103-112 | CYCLE stays in [0, CYCLE_LOOP); it steps by one and wraps to 0 exactly when it reaches CYCLE_LOOP, and only then may the iteration dispatch |
| Throttle.CycleFollowsCount | detectnet.py:103-112 | after `count` captured frames CYCLE is `count % CYCLE_LOOP`; the next step wraps exactly when `count + 1` is a multiple of CYCLE_LOOP and leaves `(count + 1) % CYCLE_LOOP` |
| Throttle.Selected | detectnet.py:103-112 | the items of the iterations the throttle lets through, in order: the CYCLE_LOOP-th, the 2 * CYCLE_LOOP-th, ..., none when dispatching is off; SelectedExactly and SelectedDisabled state it in closed form |
| Throttle.SelectedLength | detectnet.py:111-112 | with dispatching on, one iteration in every CYCLE_LOOP gets through |
| Throttle.SelectedAt | detectnet.py:111-112 | the j-th one through is iteration (j + 1) * CYCLE_LOOP |
| Throttle.LastOfCycle | detectnet.py:111-112 | an iteration count whose last iteration adds a selected one ends a full cycle |
| Throttle.SelectedExactly | detectnet.py:111-112 | exactly iterations CYCLE_LOOP, 2 * CYCLE_LOOP, ... get through, in order |
| Throttle.SelectedDisabled | detectnet.py:113 | with dispatching off nothing gets through |
| Throttle.ModStep | detectnet.py:103-112 | one more iteration steps the remainder up, or wraps it to 0 while the quotient steps up |
| Detectnet.Captured | detectnet.py:85-88 | timed-out captures are skipped, so there are never more captured frames than frames |
| Detectnet.AngleLists | detectnet.py:102-108 | one angles list per captured frame |
| Detectnet.Firsts | detectnet.py:113-114 | at most one target per list |
| Detectnet.Dispatched | detectnet.py:103-114 | the targets main_loop sends for its angle lists: the first entries of the lists the throttle lets through, when PTZ support is on; DispatchedOnlyOnDueFrames and DueFrameDispatched together state which frames give a target, and DispatchedPrefix and DueFrameDispatched state the order |
| Detectnet.FirstsComeFromLists | detectnet.py:113-114 | every target is the first entry of a non-empty list |
| Detectnet.FirstsOfNonEmpty | detectnet.py:113-114 | when every list is non-empty, the m-th target is the m-th list's first entry |
| Detectnet.FirstsHasHead | detectnet.py:113-114 | every non-empty list gives its first entry, right after the entries of the lists before it |
| Detectnet.DispatchedPrefix | detectnet.py:103-114 | what is dispatched for the first k captured frames is a prefix of what is dispatched for all of them |
| Detectnet.DueFrameDispatched | detectnet.py:111-114 | with PTZ support on, captured frame (j + 1) * 10 that has a detection gets its first detection dispatched, whatever the other frames hold, right after the targets of the frames before it |
| Detectnet.DispatchedOnlyOnDueFrames | detectnet.py:103-114 | every dispatched target is the first detection of captured frame (j + 1) * 10, for some j |
| Detectnet.DispatchedWhenEveryFrameDetects | detectnet.py:111-114 | without PTZ support nothing is dispatched; with it, and a detection in every frame, exactly the first detection of every 10th captured frame is dispatched, in order |
| Detectnet.DispatchedStep | detectnet.py:111-114 | one more frame adds its first angles exactly when it is due, PTZ support is on and it has a detection |
| Detectnet.FrameStep | detectnet.py:85-114 | a timed-out capture changes neither the lists nor the targets; a captured frame appends its angles list, and its first entry exactly when it was dispatched |
| Detectnet.CapturedFrameKeeps | detectnet.py:85-114 | a captured frame processed as ProcessFrame states keeps the loop invariant: counter, lists shown and targets dispatched agree with the frames so far |
| Detectnet.SkippedFrameKeeps | detectnet.py:87-88 | a timed-out capture keeps the loop invariant with nothing changed |
| Detectnet.ComputeAngles | detectnet.py:102-108 | `angles` is the projection of every detection, in order |
| Detectnet.ProcessFrame | detectnet.py:102-114 | steps the counter once and computes the angles list; on a due frame with PTZ support on and a detection it dispatches the first entry, with the writes, stamps and waits Angle2PTZ states; otherwise the log, the registers, the stamps and both counters are unchanged |
| Detectnet.RunFrames | detectnet.py:83-134 | the lists shown are those of the captured frames; the targets dispatched are the first entries of every 10th list with PTZ support on; the log and the registers change by exactly their writes, stamped as AllDispatchStamps says, after exactly four whole waits per dispatch, with at most 2000 sleeps per dispatch |
| Detectnet.MainLoop | detectnet.py:75-134 | MODE is set to 1 once, before the loop, and then the loop runs as RunFrames states, starting after the two waits of that `set`; log and registers hold the MODE write followed by the dispatches' writes, with their stamps |
| AngleCalculator.Sent | angular_calculation_tester/angle_calculator.py:85-96 | the cursor directions the tester sends: those of every 3rd frame with PTZ support on; SentExactly states it in closed form |
| AngleCalculator.SentStep | angular_calculation_tester/angle_calculator.py:85-96 | one more frame adds the cursor's angles exactly when it is due and PTZ support is on; there is no emptiness guard |
| AngleCalculator.SentExactly | angular_calculation_tester/angle_calculator.py:92-96 | without PTZ support nothing is sent; with it, exactly the cursor angles of frames 3, 6, 9, ... are sent, in order |
| AngleCalculator.CursorFrameKeeps | angular_calculation_tester/angle_calculator.py:85-96 | one more frame keeps the loop invariant: on a due frame with PTZ support on the cursor direction is sent, otherwise only the counter moves |
| AngleCalculator.RunCursor | angular_calculation_tester/angle_calculator.py:67-100 | the targets sent are those SentExactly describes; the log and the registers change by exactly their writes, stamped as AllDispatchStamps says, after exactly four whole waits per target, with at most 2000 sleeps per target |
| AngleCalculator.TesterLoop | angular_calculation_tester/angle_calculator.py:36-42 | MODE is set to 1 once at startup, and then the loop runs as RunCursor states, starting after the two waits of that `set`; log and registers hold the MODE write followed by the dispatches' writes, with their stamps |

The mapping `angle2PTZ` in `angular_calculation_tester/angle_calculator.py:52-63`
is the same code as `detectnet.py:62-73`, and `Pointing.Angle2PTZ` models both.

## Left out

- Projections: `get_elevation` and `get_azimut` are floating-point
  trigonometry (`angle_calculations.py`). They enter the model as function
  parameters.
- Floating point: angles are exact reals, so rounding in the projections
  and in `180 - x` is not modelled.
- The I2C bus: the smbus transport and its failures are not modelled.
  Neither is `__init__` exiting the process when the bus cannot be opened.
  Writes always succeed. A register absent from the initial map reads as 0.
- The busy register's answers are a script of 16-bit words given to the
  constructor, since `read_word_data` returns two bytes. Once the script is
  used up, the register reads as free.
- Time: `time.sleep(0.01)` is counted, not timed. The unused
  `begin = time.time()` is left out.
- `chip_addr`: every call addresses chip 0x0C, so registers are indexed by
  address alone.
- Option identifiers: the `OPT_BASE | n` numbers are not modelled. Options
  are an enumeration, so an unknown option (a `KeyError` in the source)
  cannot be expressed, and the `info == None` check in `reset` is dead code.
- The unused `flag` parameter of `get` is not modelled.
- The never-read `starting_point` and `end_point` tables are not modelled.
- Loops run over given sequences, and each run ends when its sequence
  ends:
  - for `main_loop`, the frames the source yields (None for a capture
    timeout). The source tests whether it is still streaming only after a
    captured frame, because a timeout `continue`s past that test, while
    the model's run may also end right after a timeout. A timed-out frame
    changes no state, so the runs reach the same state;
  - for the tester, the cursor position of each frame until the window is
    closed.
- Capture, cropping, inference, rendering, status text, pygame events and
  drawing, and argument parsing are not modelled. Of a detection, only its
  centre is kept. Class id and confidence are not modelled.
- `update_3d_visualization` and `angle_display.py` are not modelled.
  `shown` stands for the lists handed to them.
- Threading: `main_loop` runs on a background thread next to the plot
  window, and that concurrency is not modelled.
- Order inside one `main_loop` iteration: the source increments CYCLE
  before the detection loop and tests and resets it after
  (`detectnet.py:103` and `detectnet.py:111-112`). In the model `Tick` does
  both, before `ComputeAngles`. The detection loop never reads CYCLE, so
  the angles and the dispatch are the same either way.

=== FILE: detectnet.dfy ===
// The control path of main_loop in detectnet.py: one angles list per
// captured frame, and a dispatch of the first detection's angles on every
// CYCLE_LOOP-th captured frame when PTZ support is on.

module Detectnet {
  import opened Wrappers
  import opened FocuserDriver
  import opened Pointing
  import opened Throttle

  const CYCLE_LOOP: nat := 10

  /** The frames Capture() returned, in order; a timeout (None) is skipped. */
  function Captured(frames: seq<Option<seq<Pixel>>>): (r: seq<seq<Pixel>>)
    ensures |r| <= |frames|
    decreases |frames|
  {
    if frames == [] then []
    else
      Captured(frames[..|frames| - 1])
        + match frames[|frames| - 1]
          case None => []
          case Some(detections) => [detections]
  }

  /** The angles list of each frame. */
  function AngleLists(batches: seq<seq<Pixel>>, elevationOf: (real, real) -> real, azimutOf: (real, real) -> real): (r: seq<seq<Angles>>)
    ensures |r| == |batches|
    decreases |batches|
  {
    if batches == [] then []
    else AngleLists(batches[..|batches| - 1], elevationOf, azimutOf)
           + [ProjectAll(batches[|batches| - 1], elevationOf, azimutOf)]
  }

  /** The first entry of each non-empty list, in order. */
  function Firsts(lists: seq<seq<Angles>>): (r: seq<Angles>)
    ensures |r| <= |lists|
    decreases |lists|
  {
    if lists == [] then []
    else
      var last := lists[|lists| - 1];
      Firsts(lists[..|lists| - 1]) + (if last != [] then [last[0]] else [])
  }

  /** What the loop dispatches for the angle lists it has computed: the
      first angles of every CYCLE_LOOP-th list, when PTZ support is on and
      that list is not empty. */
  function Dispatched(shown: seq<seq<Angles>>, ptz: bool): seq<Angles> {
    Firsts(Selected(shown, CYCLE_LOOP, ptz))
  }

  /** Every first entry comes from a non-empty list. */
  lemma {:induction false} FirstsComeFromLists(lists: seq<seq<Angles>>)
    ensures forall t :: t in Firsts(lists) ==>
              exists m :: 0 <= m < |lists| && lists[m] != [] && t == lists[m][0]
    decreases |lists|
  {
    if lists != [] {
      var prefix := lists[..|lists| - 1];
      FirstsComeFromLists(prefix);
      forall t | t in Firsts(lists)
        ensures exists m :: 0 <= m < |lists| && lists[m] != [] && t == lists[m][0]
      {
        if t in Firsts(prefix) {
          var m :| 0 <= m < |prefix| && prefix[m] != [] && t == prefix[m][0];
          assert lists[m] == prefix[m];
        } else {
          assert lists[|lists| - 1] != [] && t == lists[|lists| - 1][0];
        }
      }
    }
  }

  /** When every list is non-empty, each one gives its first entry. */
  lemma {:induction false} FirstsOfNonEmpty(lists: seq<seq<Angles>>)
    requires forall m :: 0 <= m < |lists| ==> lists[m] != []
    ensures |Firsts(lists)| == |lists|
    ensures forall m :: 0 <= m < |lists| ==> Firsts(lists)[m] == lists[m][0]
    decreases |lists|
  {
    if lists != [] {
      FirstsOfNonEmpty(lists[..|lists| - 1]);
    }
  }

  /** Each dispatched target is the first detection of a frame whose rank
      among the captured frames is a multiple of CYCLE_LOOP. */
  lemma DispatchedOnlyOnDueFrames(shown: seq<seq<Angles>>, ptz: bool)
    ensures forall t :: t in Dispatched(shown, ptz) ==>
              exists j :: 0 <= j < |shown| / CYCLE_LOOP && shown[j * CYCLE_LOOP + CYCLE_LOOP - 1] != [] &&
                          t == shown[j * CYCLE_LOOP + CYCLE_LOOP - 1][0]
  {
    var sel := Selected(shown, CYCLE_LOOP, ptz);
    FirstsComeFromLists(sel);
    if ptz {
      SelectedExactly(shown, CYCLE_LOOP);
    } else {
      SelectedDisabled(shown, CYCLE_LOOP);
    }
  }

  /** Without PTZ support nothing is dispatched; with it, and a detection in
      every frame, the first detection of every CYCLE_LOOP-th frame is. */
  lemma DispatchedWhenEveryFrameDetects(shown: seq<seq<Angles>>, ptz: bool)
    ensures !ptz ==> Dispatched(shown, ptz) == []
    ensures ptz && (forall m :: 0 <= m < |shown| ==> shown[m] != []) ==>
              |Dispatched(shown, ptz)| == |shown| / CYCLE_LOOP &&
              forall j :: 0 <= j < |shown| / CYCLE_LOOP ==>
                Dispatched(shown, ptz)[j] == shown[j * CYCLE_LOOP + CYCLE_LOOP - 1][0]
  {
    if !ptz {
      SelectedDisabled(shown, CYCLE_LOOP);
    } else if forall m :: 0 <= m < |shown| ==> shown[m] != [] {
      var sel := Selected(shown, CYCLE_LOOP, true);
      SelectedExactly(shown, CYCLE_LOOP);
      FirstsOfNonEmpty(sel);
    }
  }

  /** Each non-empty list gives its first entry, placed right after the
      entries the lists before it gave. */
  lemma {:induction false} FirstsHasHead(lists: seq<seq<Angles>>, m: nat)
    requires m < |lists| && lists[m] != []
    ensures |Firsts(lists[..m])| < |Firsts(lists)|
    ensures Firsts(lists)[|Firsts(lists[..m])|] == lists[m][0]
    decreases |lists|
  {
    var prefix := lists[..|lists| - 1];
    if m == |lists| - 1 {
      assert lists[..m] == prefix;
    } else {
      FirstsHasHead(prefix, m);
      assert prefix[..m] == lists[..m];
    }
  }

  /** What is dispatched for the first `k` lists is a prefix of what is
      dispatched for all of them: a later frame never takes back or
      reorders an earlier dispatch. */
  lemma {:induction false} DispatchedPrefix(shown: seq<seq<Angles>>, ptz: bool, k: nat)
    requires k <= |shown|
    ensures Dispatched(shown[..k], ptz) <= Dispatched(shown, ptz)
    decreases |shown|
  {
    if k == |shown| {
      assert shown[..k] == shown;
    } else {
      var prefix := shown[..|shown| - 1];
      DispatchedPrefix(prefix, ptz, k);
      assert prefix[..k] == shown[..k];
      DispatchedStep(prefix, shown[|shown| - 1], ptz);
      assert prefix + [shown[|shown| - 1]] == shown;
    }
  }

  /** With PTZ support on, captured frame (j + 1) * CYCLE_LOOP that has a
      detection gets its first detection dispatched, whatever the other
      frames hold, right after the targets of the frames before it. */
  lemma DueFrameDispatched(shown: seq<seq<Angles>>, j: nat)
    requires j < |shown| / CYCLE_LOOP
    requires shown[j * CYCLE_LOOP + CYCLE_LOOP - 1] != []
    ensures var n := j * CYCLE_LOOP + CYCLE_LOOP - 1;
            |Dispatched(shown[..n], true)| < |Dispatched(shown, true)| &&
            Dispatched(shown, true)[|Dispatched(shown[..n], true)|] == shown[n][0]
  {
    var n := j * CYCLE_LOOP + CYCLE_LOOP - 1;
    assert (n + 1) % CYCLE_LOOP == 0;
    DispatchedStep(shown[..n], shown[n], true);
    assert shown[..n] + [shown[n]] == shown[..n + 1];
    DispatchedPrefix(shown, true, n + 1);
  }

  // One more iteration of the loop, for each of the functions above.

  lemma CapturedStep(frames: seq<Option<seq<Pixel>>>, i: nat)
    requires i < |frames|
    ensures frames[i].None? ==> Captured(frames[..i + 1]) == Captured(frames[..i])
    ensures frames[i].Some? ==> Captured(frames[..i + 1]) == Captured(frames[..i]) + [frames[i].value]
  {
    assert frames[..i + 1][..i] == frames[..i];
  }

  lemma AngleListsStep(batches: seq<seq<Pixel>>, b: seq<Pixel>, elevationOf: (real, real) -> real, azimutOf: (real, real) -> real)
    ensures AngleLists(batches + [b], elevationOf, azimutOf)
              == AngleLists(batches, elevationOf, azimutOf) + [ProjectAll(b, elevationOf, azimutOf)]
  {
    assert (batches + [b])[..|batches|] == batches;
  }

  lemma DispatchedStep(shown: seq<seq<Angles>>, angles: seq<Angles>, ptz: bool)
    ensures Dispatched(shown + [angles], ptz) == Dispatched(shown, ptz)
              + (if ptz && (|shown| + 1) % CYCLE_LOOP == 0 && angles != [] then [angles[0]] else [])
  {
    var all := shown + [angles];
    assert all[..|shown|] == shown;
    var sel := Selected(shown, CYCLE_LOOP, ptz);
    if ptz && (|shown| + 1) % CYCLE_LOOP == 0 {
      assert Selected(all, CYCLE_LOOP, ptz) == sel + [angles];
      assert (sel + [angles])[..|sel|] == sel;
    } else {
      assert Selected(all, CYCLE_LOOP, ptz) == sel;
    }
  }

  /** What one iteration of the frame loop adds: nothing for a timed-out
      capture; otherwise the frame's angles list, and its first entry when
      ProcessFrame dispatched it. */
  lemma FrameStep(frames: seq<Option<seq<Pixel>>>, i: nat, shown: seq<seq<Angles>>,
                  angles: seq<Angles>, target: Option<Angles>, ptz: bool,
                  elevationOf: (real, real) -> real, azimutOf: (real, real) -> real)
    requires i < |frames|
    requires shown == AngleLists(Captured(frames[..i]), elevationOf, azimutOf)
    requires frames[i].Some? ==> angles == ProjectAll(frames[i].value, elevationOf, azimutOf)
    requires frames[i].Some? ==>
               target == (if ptz && (|shown| + 1) % CYCLE_LOOP == 0 && angles != [] then Some(angles[0]) else None)
    ensures frames[i].None? ==> shown == AngleLists(Captured(frames[..i + 1]), elevationOf, azimutOf)
    ensures frames[i].Some? ==> shown + [angles] == AngleLists(Captured(frames[..i + 1]), elevationOf, azimutOf)
    ensures frames[i].Some? ==>
              Dispatched(shown + [angles], ptz)
                == Dispatched(shown, ptz) + (if target.Some? then [target.value] else [])
  {
    CapturedStep(frames, i);
    if frames[i].Some? {
      AngleListsStep(Captured(frames[..i]), frames[i].value, elevationOf, azimutOf);
      DispatchedStep(shown, angles, ptz);
    }
  }

  /** The frame loop's invariant after `i` frames: the counter, the lists
      shown, the targets dispatched and the writes logged so far. */
  ghost predicate FramesSoFar(frames: seq<Option<seq<Pixel>>>, i: nat, shown: seq<seq<Angles>>, dispatched: seq<Angles>,
                              cycle: int, ptz: bool, elevationOf: (real, real) -> real, azimutOf: (real, real) -> real)
    requires i <= |frames|
  {
    && cycle == |shown| % CYCLE_LOOP
    && shown == AngleLists(Captured(frames[..i]), elevationOf, azimutOf)
    && dispatched == Dispatched(shown, ptz)
  }

  /** A captured frame, processed as ProcessFrame promises, keeps the frame
      loop's invariant. */
  lemma {:induction false} CapturedFrameKeeps(frames: seq<Option<seq<Pixel>>>, i: nat, shown: seq<seq<Angles>>, dispatched: seq<Angles>,
                                              ptz: bool, elevationOf: (real, real) -> real, azimutOf: (real, real) -> real,
                                              angles: seq<Angles>, target: Option<Angles>)
    requires i < |frames| && frames[i].Some?
    requires FramesSoFar(frames, i, shown, dispatched, |shown| % CYCLE_LOOP, ptz, elevationOf, azimutOf)
    requires angles == ProjectAll(frames[i].value, elevationOf, azimutOf)
    requires target == (if ptz && (|shown| + 1) % CYCLE_LOOP == 0 && angles != [] then Some(angles[0]) else None)
    ensures FramesSoFar(frames, i + 1, shown + [angles], dispatched + (if target.Some? then [target.value] else []),
                        (|shown| + 1) % CYCLE_LOOP, ptz, elevationOf, azimutOf)
  {
    FrameStep(frames, i, shown, angles, target, ptz, elevationOf, azimutOf);
  }

  /** A timed-out capture keeps the frame loop's invariant unchanged. */
  lemma {:induction false} SkippedFrameKeeps(frames: seq<Option<seq<Pixel>>>, i: nat, shown: seq<seq<Angles>>, dispatched: seq<Angles>,
                                             cycle: int, ptz: bool, elevationOf: (real, real) -> real, azimutOf: (real, real) -> real)
    requires i < |frames| && frames[i].None?
    requires FramesSoFar(frames, i, shown, dispatched, cycle, ptz, elevationOf, azimutOf)
    ensures FramesSoFar(frames, i + 1, shown, dispatched, cycle, ptz, elevationOf, azimutOf)
  {
    FrameStep(frames, i, shown, [], None, ptz, elevationOf, azimutOf);
  }

  /** The `for detection in detections` loop building `angles`. */
  method ComputeAngles(detections: seq<Pixel>, elevationOf: (real, real) -> real, azimutOf: (real, real) -> real)
    returns (angles: seq<Angles>)
    ensures angles == ProjectAll(detections, elevationOf, azimutOf)
  {
    angles := [];
    for i := 0 to |detections|
      invariant angles == ProjectAll(detections[..i], elevationOf, azimutOf)
    {
      var elevation := elevationOf(detections[i].x, detections[i].y);
      var azimut := azimutOf(detections[i].x, detections[i].y);
      angles := angles + [Angles(elevation, azimut)];
      assert detections[..i + 1][..i] == detections[..i];
    }
    assert detections[..|detections|] == detections;
  }

  /** One pass of main_loop's body for a frame Capture() returned, the
      `count`-th such frame from 0: step the cycle counter, compute the
      angles list and, when the counter wraps, PTZ support is on and there
      is at least one detection, point the actuator at the first one. */
  method ProcessFrame(focuser: Focuser, counter: CycleCounter, ghost count: nat, detections: seq<Pixel>, ptz: bool,
                      elevationOf: (real, real) -> real, azimutOf: (real, real) -> real)
    returns (angles: seq<Angles>, target: Option<Angles>)
    requires counter.Valid() && counter.cycleLoop == CYCLE_LOOP && counter.cycle == count % CYCLE_LOOP
    modifies focuser, counter
    ensures counter.Valid() && counter.cycleLoop == CYCLE_LOOP && counter.cycle == (count + 1) % CYCLE_LOOP
    ensures angles == ProjectAll(detections, elevationOf, azimutOf)
    ensures target == (if ptz && (count + 1) % CYCLE_LOOP == 0 && angles != [] then Some(angles[0]) else None)
    ensures target.Some? ==>
              DispatchEffect(focuser.script, Device(old(focuser.regs), old(focuser.log), old(focuser.stamps), old(focuser.polls), old(focuser.sleeps)),
                             target.value, Device(focuser.regs, focuser.log, focuser.stamps, focuser.polls, focuser.sleeps))
    ensures target.None? ==>
              && focuser.log == old(focuser.log) && focuser.regs == old(focuser.regs) && focuser.stamps == old(focuser.stamps)
              && focuser.polls == old(focuser.polls) && focuser.sleeps == old(focuser.sleeps)
  {
    var due := counter.Tick();
    CycleFollowsCount(count, CYCLE_LOOP);
    angles := ComputeAngles(detections, elevationOf, azimutOf);
    target := None;
    if due && ptz && angles != [] {
      var first := angles[0];
      Angle2PTZ(focuser, first.elevation, first.azimut);
      assert Angles(first.elevation, first.azimut) == first;
      target := Some(first);
    }
  }

  /** The `while True` loop of main_loop, over the frames the video source
      yields (a timeout changes nothing): each captured frame steps the cycle
      counter and gets its angles list; `shown` collects the lists handed
      to the display and `dispatched` the targets sent to the actuator. */
  method RunFrames(focuser: Focuser, counter: CycleCounter, frames: seq<Option<seq<Pixel>>>, ptz: bool,
                   elevationOf: (real, real) -> real, azimutOf: (real, real) -> real)
    returns (shown: seq<seq<Angles>>, dispatched: seq<Angles>)
    requires counter.Valid() && counter.cycleLoop == CYCLE_LOOP && counter.cycle == 0
    modifies focuser, counter
    ensures shown == AngleLists(Captured(frames), elevationOf, azimutOf)
    ensures dispatched == Dispatched(shown, ptz)
    ensures focuser.log == old(focuser.log) + AllDispatchWrites(dispatched)
    ensures focuser.regs == ApplyWrites(old(focuser.regs), AllDispatchWrites(dispatched))
    ensures focuser.stamps == old(focuser.stamps) + AllDispatchStamps(focuser.script, old(focuser.polls), |dispatched|)
    ensures focuser.polls == AfterWaits(focuser.script, old(focuser.polls), 4 * |dispatched|)
    ensures focuser.polls - old(focuser.polls) == focuser.sleeps - old(focuser.sleeps) + 4 * |dispatched|
    ensures focuser.sleeps - old(focuser.sleeps) <= 4 * WAIT_LIMIT * |dispatched|
  {
    ghost var start := Device(focuser.regs, focuser.log, focuser.stamps, focuser.polls, focuser.sleeps);
    shown, dispatched := [], [];
    for i := 0 to |frames|
      invariant counter.Valid() && counter.cycleLoop == CYCLE_LOOP
      invariant FramesSoFar(frames, i, shown, dispatched, counter.cycle, ptz, elevationOf, azimutOf)
      invariant DeviceAfter(focuser.script, Device(focuser.regs, focuser.log, focuser.stamps, focuser.polls, focuser.sleeps), start, dispatched)
    {
      match frames[i]
      case None =>
        // Capture() timed out: the frame is skipped.
        SkippedFrameKeeps(frames, i, shown, dispatched, counter.cycle, ptz, elevationOf, azimutOf);
      case Some(detections) =>
        ghost var d := Device(focuser.regs, focuser.log, focuser.stamps, focuser.polls, focuser.sleeps);
        var angles, target := ProcessFrame(focuser, counter, |shown|, detections, ptz, elevationOf, azimutOf);
        CapturedFrameKeeps(frames, i, shown, dispatched, ptz, elevationOf, azimutOf, angles, target);
        DeviceStep(focuser.script, d, start, dispatched,
                   if target.Some? then target.value else Angles(0.0, 0.0), target.Some?, Device(focuser.regs, focuser.log, focuser.stamps, focuser.polls, focuser.sleeps));
        shown := shown + [angles];
        if target.Some? {
          dispatched := dispatched + [target.value];
        }
    }
    assert frames[..|frames|] == frames;
  }

  /** main_loop: MODE is set to 1 once, with a fresh cycle counter, before
      the frame loop starts. */
  method MainLoop(focuser: Focuser, frames: seq<Option<seq<Pixel>>>, ptz: bool,
                  elevationOf: (real, real) -> real, azimutOf: (real, real) -> real)
    returns (shown: seq<seq<Angles>>, dispatched: seq<Angles>)
    modifies focuser
    ensures shown == AngleLists(Captured(frames), elevationOf, azimutOf)
    ensures dispatched == Dispatched(shown, ptz)
    ensures focuser.log == old(focuser.log) + [ModeOn()] + AllDispatchWrites(dispatched)
    ensures focuser.regs == ApplyWrites(old(focuser.regs), [ModeOn()] + AllDispatchWrites(dispatched))
    ensures focuser.stamps == old(focuser.stamps) + [AfterWaits(focuser.script, old(focuser.polls), 1)]
                              + AllDispatchStamps(focuser.script, AfterWaits(focuser.script, old(focuser.polls), 2), |dispatched|)
    ensures focuser.polls == AfterWaits(focuser.script, old(focuser.polls), 2 + 4 * |dispatched|)
    ensures focuser.polls - old(focuser.polls) == focuser.sleeps - old(focuser.sleeps) + 2 + 4 * |dispatched|
    ensures focuser.sleeps - old(focuser.sleeps) <= 2 * WAIT_LIMIT + 4 * WAIT_LIMIT * |dispatched|
  {
    ghost var start := Device(focuser.regs, focuser.log, focuser.stamps, focuser.polls, focuser.sleeps);
    focuser.Set(Mode, 0x0001);
    ghost var afterMode := Device(focuser.regs, focuser.log, focuser.stamps, focuser.polls, focuser.sleeps);
    var counter := new CycleCounter(CYCLE_LOOP);
    shown, dispatched := RunFrames(focuser, counter, frames, ptz, elevationOf, azimutOf);
    ModeThenDispatches(focuser.script, start, afterMode, Device(focuser.regs, focuser.log, focuser.stamps, focuser.polls, focuser.sleeps), dispatched);
  }
}

=== FILE: focuser.dfy ===
// The register protocol of the Arducam pan-tilt / zoom-lens controller
// (angular_calculation_tester/Focuser.py).
//
// The I2C bus is abstract: the device is a map from register address to the
// 16-bit word it holds, in the device's byte order, together with a log of
// every word written, in order. The busy register is an oracle: its n-th read
// returns the n-th word of a script, and 0 (free) once the script is used up.
// A 10 ms sleep is counted, not timed.

module Wrappers {
  datatype Option<+T> = None | Some(value: T)
}

module FocuserDriver {
  import opened Wrappers

  const BUSY_REG_ADDR: nat := 0x04
  /** Number of 10 ms polls in the 5 second budget of waitingForFree (5 / 0.01). */
  const WAIT_LIMIT: nat := 500

  // ---------------------------------------------------------------------------
  // 16-bit words and their byte order on the wire

  /** A word as it travels on the bus: `read_word_data` and
      `write_word_data` carry two bytes. */
  type BusWord = w: nat | w < 0x1_0000

  /** `v & 0x00FF` for a non-negative `v`. */
  function LowByte(v: nat): (b: nat)
    ensures b < 0x100
  {
    v % 0x100
  }

  /** `(v & 0xFF00) >> 8` for a non-negative `v`. */
  function HighByte(v: nat): (b: nat)
    ensures b < 0x100
  {
    (v / 0x100) % 0x100
  }

  /** `((v & 0x00FF) << 8) | ((v & 0xFF00) >> 8)`: the two shifted bytes do not
      overlap, so the `|` is a sum. Bits above the low 16 are dropped. */
  function SwapBytes(v: nat): (w: nat)
    ensures w < 0x1_0000
  {
    (v % 0x100) * 0x100 + (v / 0x100) % 0x100
  }

  /** The swap exchanges the two low bytes. */
  lemma SwapBytesExchanges(v: nat)
    ensures HighByte(SwapBytes(v)) == LowByte(v) && LowByte(SwapBytes(v)) == HighByte(v)
  {
  }

  lemma WordIsItsBytes(v: nat)
    requires v < 0x1_0000
    ensures v == HighByte(v) * 0x100 + LowByte(v)
  {
  }

  /** Swapping twice gives back any 16-bit word. */
  lemma SwapBytesInvolution(v: nat)
    requires v < 0x1_0000
    ensures SwapBytes(SwapBytes(v)) == v
  {
    SwapBytesExchanges(v);
    WordIsItsBytes(SwapBytes(v));
    WordIsItsBytes(v);
  }

  /** The value `read` returns for a word received from the bus. */
  function Decode(word: nat): (v: nat)
    ensures v < 0x1_0000
  {
    SwapBytes(word)
  }

  /** The word `write` puts on the bus for `value`: negatives become 0 first. */
  function Encode(value: int): (word: BusWord)
    ensures value <= 0 ==> word == 0
  {
    SwapBytes(if value < 0 then 0 else value)
  }

  /** A write followed by a read of the same register gives back the written
      value when it fits in 16 bits, and 0 when it was negative. */
  lemma {:induction false} EncodeDecode(value: int)
    requires value < 0x1_0000
    ensures value >= 0 ==> Decode(Encode(value)) == value
    ensures value < 0 ==> Decode(Encode(value)) == 0
  {
    if value >= 0 {
      SwapBytesInvolution(value);
    } else {
      SwapBytesInvolution(0);
    }
  }

  /** Only the low 16 bits of a value reach the device. */
  lemma {:induction false} EncodeKeepsLow16Bits(value: nat)
    ensures Encode(value) == Encode(value % 0x1_0000)
    ensures Decode(Encode(value)) == value % 0x1_0000
  {
    assert LowByte(value) == LowByte(value % 0x1_0000);
    assert HighByte(value) == HighByte(value % 0x1_0000);
    SwapBytesInvolution(value % 0x1_0000);
  }

  /** A word from the busy register that says "busy". */
  predicate BusyWord(word: BusWord) {
    word != 0
  }

  /** `isBusy` compares the value `read` returns with 0; the swap maps only
      the zero word to 0, so that value is non-zero exactly for a busy word. */
  lemma {:induction false} BusyWordIffReadNonZero(word: BusWord)
    ensures BusyWord(word) <==> Decode(word) != 0
  {
    WordIsItsBytes(word);
    assert Decode(word) == LowByte(word) * 0x100 + HighByte(word);
  }

  // ---------------------------------------------------------------------------
  // The option table

  datatype Opt = Focus | Zoom | MotorX | MotorY | IrCut | Mode

  /** Register address, inclusive value range and optional reset register. */
  datatype OptInfo = OptInfo(regAddr: nat, minValue: int, maxValue: int, resetAddr: Option<nat>)

  function Info(opt: Opt): (info: OptInfo)
    ensures 0 <= info.minValue <= info.maxValue < 0x1_0000
    ensures info.regAddr != BUSY_REG_ADDR
    ensures info.resetAddr.Some? <==> (opt == Focus || opt == Zoom)
    ensures info.resetAddr.Some? ==> info.resetAddr.value == info.regAddr + 0x0A
  {
    match opt
    case Focus => OptInfo(0x01, 0, 20000, Some(0x01 + 0x0A))
    case Zoom => OptInfo(0x00, 3000, 20000, Some(0x00 + 0x0A))
    case MotorX => OptInfo(0x05, 0, 180, None)
    case MotorY => OptInfo(0x06, 0, 180, None)
    case IrCut => OptInfo(0x0C, 0x00, 0x01, None)
    case Mode => OptInfo(0x30, 0x00, 0x01, None)
  }

  /** Each option has its own register, and no reset register is another
      option's value register. */
  lemma {:induction false} RegistersDistinct(a: Opt, b: Opt)
    ensures a != b ==> Info(a).regAddr != Info(b).regAddr
    ensures Info(a).resetAddr.Some? ==> Info(a).resetAddr.value != Info(b).regAddr
  {
    match a
    case Focus =>
    case Zoom =>
    case MotorX =>
    case MotorY =>
    case IrCut =>
    case Mode =>
  }

  function Distance(a: int, b: int): nat {
    if a <= b then b - a else a - b
  }

  /** The value `set` writes: too large becomes MAX_VALUE, else too small
      becomes MIN_VALUE. It is the closest value of the option's range. */
  function Clamp(opt: Opt, value: int): (v: int)
    ensures Info(opt).minValue <= v <= Info(opt).maxValue
    ensures Info(opt).minValue <= value <= Info(opt).maxValue ==> v == value
  {
    var info := Info(opt);
    if value > info.maxValue then info.maxValue
    else if value < info.minValue then info.minValue
    else value
  }

  /** No value of the option's range is closer to the request than the
      clamped one. */
  lemma ClampIsNearest(opt: Opt, value: int, u: int)
    requires Info(opt).minValue <= u <= Info(opt).maxValue
    ensures Distance(Clamp(opt, value), value) <= Distance(u, value)
  {
  }

  /** `reset` sets an option to its minimum, which `set` leaves unclamped. */
  lemma MinimumIsInRange(opt: Opt)
    ensures Clamp(opt, Info(opt).minValue) == Info(opt).minValue
  {
  }

  /** `set` followed by `get` of the same option returns the clamped value. */
  lemma {:induction false} SetGetRoundTrip(opt: Opt, value: int)
    ensures Decode(Encode(Clamp(opt, value))) == Clamp(opt, value)
  {
    EncodeDecode(Clamp(opt, value));
  }

  lemma ZoomExamples()
    ensures Clamp(Zoom, 99999) == 20000
    ensures Clamp(Zoom, 0) == 3000
  {
  }

  // ---------------------------------------------------------------------------
  // Polling the busy register

  /** The word the n-th read of the busy register returns. */
  function ScriptWord(script: seq<BusWord>, n: nat): BusWord {
    if n < |script| then script[n] else 0
  }

  /** How many consecutive reads from read number `from` on say "busy",
      counting at most `limit` of them. */
  function BusyRun(script: seq<BusWord>, from: nat, limit: nat): (n: nat)
    ensures n <= limit
    decreases limit
  {
    if limit == 0 || !BusyWord(ScriptWord(script, from)) then 0
    else 1 + BusyRun(script, from + 1, limit - 1)
  }

  /** Every read counted by BusyRun said "busy", and unless the budget ran
      out, the read right after them said "free": the wait stops at the
      first free reading. */
  lemma {:induction false} BusyRunIsLongestBusyPrefix(script: seq<BusWord>, from: nat, limit: nat)
    ensures forall i :: from <= i < from + BusyRun(script, from, limit) ==> BusyWord(ScriptWord(script, i))
    ensures BusyRun(script, from, limit) < limit ==> !BusyWord(ScriptWord(script, from + BusyRun(script, from, limit)))
    decreases limit
  {
    if limit > 0 && BusyWord(ScriptWord(script, from)) {
      BusyRunIsLongestBusyPrefix(script, from + 1, limit - 1);
    }
  }

  lemma BusyRunStep(script: seq<BusWord>, from: nat, limit: nat)
    requires limit > 0 && BusyWord(ScriptWord(script, from))
    ensures BusyRun(script, from, limit) == 1 + BusyRun(script, from + 1, limit - 1)
  {
  }

  lemma BusyRunStop(script: seq<BusWord>, from: nat, limit: nat)
    requires limit == 0 || !BusyWord(ScriptWord(script, from))
    ensures BusyRun(script, from, limit) == 0
  {
  }

  /** A device that stays busy makes waitingForFree use its whole budget. */
  lemma {:induction false} AlwaysBusyUsesBudget(script: seq<BusWord>, from: nat, limit: nat)
    requires forall i :: from <= i < from + limit ==> BusyWord(ScriptWord(script, i))
    ensures BusyRun(script, from, limit) == limit
    decreases limit
  {
    if limit > 0 {
      AlwaysBusyUsesBudget(script, from + 1, limit - 1);
    }
  }

  /** The number of busy-register reads taken once `n` waitingForFree calls
      in a row, the first starting after read number `from`, have returned:
      each one reads through the busy run and then reads once more. */
  function AfterWaits(script: seq<BusWord>, from: nat, n: nat): nat
    decreases n
  {
    if n == 0 then from
    else
      var p := AfterWaits(script, from, n - 1);
      p + BusyRun(script, p, WAIT_LIMIT) + 1
  }

  /** Waiting `m` times and then `n` times is waiting `m + n` times. */
  lemma {:induction false} AfterWaitsAdd(script: seq<BusWord>, from: nat, m: nat, n: nat)
    ensures AfterWaits(script, AfterWaits(script, from, m), n) == AfterWaits(script, from, m + n)
    decreases n
  {
    if n > 0 {
      AfterWaitsAdd(script, from, m, n - 1);
    }
  }

  /** Every wait reads the busy register at least once, so later waits end
      strictly later. */
  lemma {:induction false} AfterWaitsGrows(script: seq<BusWord>, from: nat, m: nat, n: nat)
    requires m <= n
    ensures AfterWaits(script, from, m) + (n - m) <= AfterWaits(script, from, n)
    decreases n
  {
    if m < n {
      AfterWaitsGrows(script, from, m, n - 1);
    }
  }

  /** A wait that starts after read number `from` ends right after a read
      that said "free", unless it took all WAIT_LIMIT sleeps; every read
      before that one said "busy". */
  lemma WaitEndsAtFreeRead(script: seq<BusWord>, from: nat)
    ensures var last := AfterWaits(script, from, 1) - 1;
            && from <= last
            && (forall i :: from <= i < last ==> BusyWord(ScriptWord(script, i)))
            && (!BusyWord(ScriptWord(script, last)) || last - from == WAIT_LIMIT)
  {
    assert AfterWaits(script, from, 0) == from;
    BusyRunIsLongestBusyPrefix(script, from, WAIT_LIMIT);
  }

  /** One word write on the bus. */
  datatype WordWrite = WordWrite(reg: nat, word: BusWord)

  /** The register map after a sequence of writes, applied in order. */
  function ApplyWrites(regs: map<nat, BusWord>, ws: seq<WordWrite>): map<nat, BusWord>
    decreases |ws|
  {
    if ws == [] then regs
    else ApplyWrites(regs, ws[..|ws| - 1])[ws[|ws| - 1].reg := ws[|ws| - 1].word]
  }

  /** Applying two runs of writes one after the other is applying them
      together. */
  lemma {:induction false} ApplyWritesAppend(regs: map<nat, BusWord>, ws: seq<WordWrite>, more: seq<WordWrite>)
    ensures ApplyWrites(regs, ws + more) == ApplyWrites(ApplyWrites(regs, ws), more)
    decreases |more|
  {
    if more == [] {
      assert ws + more == ws;
    } else {
      var last := |more| - 1;
      assert (ws + more)[..|ws| + last] == ws + more[..last];
      ApplyWritesAppend(regs, ws, more[..last]);
    }
  }

  /** A register no write addresses keeps its contents, or its absence. */
  lemma {:induction false} ApplyWritesElsewhere(regs: map<nat, BusWord>, ws: seq<WordWrite>, reg: nat)
    requires forall i :: 0 <= i < |ws| ==> ws[i].reg != reg
    ensures reg in ApplyWrites(regs, ws) <==> reg in regs
    ensures reg in regs ==> ApplyWrites(regs, ws)[reg] == regs[reg]
    decreases |ws|
  {
    if ws != [] {
      ApplyWritesElsewhere(regs, ws[..|ws| - 1], reg);
    }
  }

  /** The register the last write addresses holds that write's word. */
  lemma {:induction false} ApplyWritesLast(regs: map<nat, BusWord>, ws: seq<WordWrite>, w: WordWrite)
    ensures w.reg in ApplyWrites(regs, ws + [w]) && ApplyWrites(regs, ws + [w])[w.reg] == w.word
  {
    assert (ws + [w])[..|ws|] == ws;
  }

  /** A snapshot of what a Focuser handle tracks, for stating what a run of
      operations does to it. */
  datatype Device = Device(regs: map<nat, BusWord>, log: seq<WordWrite>, stamps: seq<nat>, polls: nat, sleeps: nat)

  class Focuser {
    /** The words the busy register returns on its successive reads. */
    const script: seq<BusWord>
    /** Register contents, as words in the device's byte order. */
    var regs: map<nat, BusWord>
    /** Every word written, oldest first. */
    var log: seq<WordWrite>
    /** How many times the busy register has been read. */
    var polls: nat
    /** How many 10 ms sleeps have been taken. */
    var sleeps: nat
    /** For each write in `log`, how many busy-register reads preceded it. */
    var stamps: seq<nat>

    constructor (regs0: map<nat, BusWord>, script: seq<BusWord>)
      ensures this.script == script && regs == regs0
      ensures log == [] && polls == 0 && sleeps == 0 && stamps == []
    {
      this.script := script;
      regs := regs0;
      log := [];
      polls := 0;
      sleeps := 0;
      stamps := [];
    }

    /** The word register `reg` holds; a register absent from the map reads
        as 0. */
    function Word(reg: nat): BusWord
      reads this
    {
      if reg in regs then regs[reg] else 0
    }

    method Read(reg: nat) returns (value: nat)
      modifies this`polls
      ensures reg == BUSY_REG_ADDR ==> value == Decode(ScriptWord(script, old(polls))) && polls == old(polls) + 1
      ensures reg != BUSY_REG_ADDR ==> value == Decode(Word(reg)) && polls == old(polls)
      ensures regs == old(regs) && log == old(log) && sleeps == old(sleeps)
    {
      var word: nat;
      if reg == BUSY_REG_ADDR {
        word := ScriptWord(script, polls);
        polls := polls + 1;
      } else {
        word := Word(reg);
      }
      value := SwapBytes(word);
    }

    method Write(reg: nat, value: int)
      modifies this`regs, this`log, this`stamps
      ensures regs == old(regs)[reg := Encode(value)]
      ensures log == old(log) + [WordWrite(reg, Encode(value))]
      ensures stamps == old(stamps) + [polls]
    {
      var v := value;
      if v < 0 {
        v := 0;
      }
      var word := SwapBytes(v);
      assert word == Encode(value);
      regs := regs[reg := word];
      log := log + [WordWrite(reg, word)];
      stamps := stamps + [polls];
    }

    method IsBusy() returns (busy: bool)
      modifies this`polls
      ensures busy == BusyWord(ScriptWord(script, old(polls)))
      ensures polls == old(polls) + 1
      ensures regs == old(regs) && log == old(log) && sleeps == old(sleeps)
    {
      var status := Read(BUSY_REG_ADDR);
      BusyWordIffReadNonZero(ScriptWord(script, old(polls)));
      busy := status != 0;
    }

    method Sleep()
      modifies this`sleeps
      ensures sleeps == old(sleeps) + 1
      ensures regs == old(regs) && log == old(log) && polls == old(polls)
    {
      sleeps := sleeps + 1;
    }

    /** Polls until the device is free or WAIT_LIMIT sleeps have been taken;
        it returns normally in both cases. Each sleep follows a busy read,
        and one more read ends the wait. */
    method WaitingForFree()
      modifies this`polls, this`sleeps
      ensures sleeps == old(sleeps) + BusyRun(script, old(polls), WAIT_LIMIT)
      ensures polls == old(polls) + BusyRun(script, old(polls), WAIT_LIMIT) + 1
      ensures polls == AfterWaits(script, old(polls), 1)
      ensures regs == old(regs) && log == old(log)
    {
      var count := 0;
      var busy := IsBusy();
      while busy && count < WAIT_LIMIT
        invariant count <= WAIT_LIMIT
        invariant polls == old(polls) + count + 1 && sleeps == old(sleeps) + count
        invariant regs == old(regs) && log == old(log)
        invariant busy == BusyWord(ScriptWord(script, old(polls) + count))
        invariant BusyRun(script, old(polls), WAIT_LIMIT)
                  == count + BusyRun(script, old(polls) + count, WAIT_LIMIT - count)
        decreases WAIT_LIMIT - count
      {
        BusyRunStep(script, old(polls) + count, WAIT_LIMIT - count);
        count := count + 1;
        Sleep();
        busy := IsBusy();
      }
      BusyRunStop(script, old(polls) + count, WAIT_LIMIT - count);
    }

    method Get(opt: Opt) returns (value: nat)
      modifies this`polls, this`sleeps
      ensures value == Decode(Word(Info(opt).regAddr))
      ensures regs == old(regs) && log == old(log)
      ensures polls == AfterWaits(script, old(polls), 1)
      ensures polls - old(polls) == sleeps - old(sleeps) + 1
      ensures sleeps - old(sleeps) <= WAIT_LIMIT
    {
      WaitingForFree();
      var info := Info(opt);
      value := Read(info.regAddr);
    }

    /** Writes the option's value clamped into its range; waits for the device
        before, and after as well when bit 0 of `flag` is set. */
    method Set(opt: Opt, value: int, flag: int := 1)
      modifies this`regs, this`log, this`polls, this`sleeps, this`stamps
      ensures regs == old(regs)[Info(opt).regAddr := Encode(Clamp(opt, value))]
      ensures log == old(log) + [WordWrite(Info(opt).regAddr, Encode(Clamp(opt, value)))]
      ensures stamps == old(stamps) + [AfterWaits(script, old(polls), 1)]
      ensures polls == AfterWaits(script, old(polls), Waits(flag))
      ensures polls - old(polls) == sleeps - old(sleeps) + Waits(flag)
      ensures sleeps - old(sleeps) <= SleepBudget(flag)
    {
      WaitingForFree();
      var info := Info(opt);
      var v := value;
      if v > info.maxValue {
        v := info.maxValue;
      } else if v < info.minValue {
        v := info.minValue;
      }
      assert v == Clamp(opt, value);
      Write(info.regAddr, v);
      ghost var (p1, s1) := (polls, sleeps);
      assert p1 - old(polls) == s1 - old(sleeps) + 1 && s1 - old(sleeps) <= WAIT_LIMIT;
      if flag % 2 != 0 {
        WaitingForFree();
        assert polls - p1 == sleeps - s1 + 1 && sleeps - s1 <= WAIT_LIMIT;
        AfterWaitsAdd(script, old(polls), 1, 1);
      }
    }

    /** For FOCUS and ZOOM: writes 0 to the reset register, then sets the
        option to its minimum. The other options are left alone. */
    method Reset(opt: Opt, flag: int := 1)
      modifies this`regs, this`log, this`polls, this`sleeps, this`stamps
      ensures Info(opt).resetAddr.None? ==>
                regs == old(regs) && log == old(log) && stamps == old(stamps) &&
                polls == AfterWaits(script, old(polls), 1) &&
                polls - old(polls) == sleeps - old(sleeps) + 1 &&
                sleeps - old(sleeps) <= WAIT_LIMIT
      ensures Info(opt).resetAddr.Some? ==>
                regs == old(regs)[Info(opt).resetAddr.value := Encode(0)][Info(opt).regAddr := Encode(Info(opt).minValue)]
      ensures Info(opt).resetAddr.Some? ==>
                log == old(log) + [WordWrite(Info(opt).resetAddr.value, Encode(0)),
                                   WordWrite(Info(opt).regAddr, Encode(Info(opt).minValue))]
      ensures Info(opt).resetAddr.Some? ==>
                stamps == old(stamps) + [AfterWaits(script, old(polls), 1), AfterWaits(script, old(polls), 2)]
      ensures Info(opt).resetAddr.Some? ==>
                polls == AfterWaits(script, old(polls), 2 + Waits(flag)) &&
                polls - old(polls) == sleeps - old(sleeps) + 2 + Waits(flag) &&
                sleeps - old(sleeps) <= 2 * WAIT_LIMIT + SleepBudget(flag)
    {
      WaitingForFree();
      ghost var (p1, s1) := (polls, sleeps);
      var info := Info(opt);
      if info.resetAddr.Some? {
        ghost var zero := WordWrite(info.resetAddr.value, Encode(0));
        ghost var minimum := WordWrite(info.regAddr, Encode(info.minValue));
        Write(info.resetAddr.value, 0x0000);
        MinimumIsInRange(opt);
        Set(opt, info.minValue);
        assert log == old(log) + [zero] + [minimum] == old(log) + [zero, minimum];
        assert stamps == old(stamps) + [p1] + [AfterWaits(script, p1, 1)];
        ghost var (p2, s2) := (polls, sleeps);
        if flag % 2 != 0 {
          WaitingForFree();
        }
        ResetWaits(script, old(polls), old(sleeps), p1, s1, p2, s2, polls, sleeps, flag);
      }
    }
  }

  /** The waits of `reset` for FOCUS and ZOOM: one wait, the two of `set`
      with its default flag, and one more when bit 0 of `flag` is set. */
  lemma ResetWaits(script: seq<BusWord>, p0: nat, s0: nat, p1: nat, s1: nat, p2: nat, s2: nat, p3: nat, s3: nat, flag: int)
    requires p1 == AfterWaits(script, p0, 1) && p1 - p0 == s1 - s0 + 1 && s1 - s0 <= WAIT_LIMIT
    requires p2 == AfterWaits(script, p1, Waits(1)) && p2 - p1 == s2 - s1 + Waits(1) && s2 - s1 <= SleepBudget(1)
    requires flag % 2 != 0 ==> p3 == AfterWaits(script, p2, 1) && p3 - p2 == s3 - s2 + 1 && s3 - s2 <= WAIT_LIMIT
    requires flag % 2 == 0 ==> p3 == p2 && s3 == s2
    ensures AfterWaits(script, p1, 1) == AfterWaits(script, p0, 2)
    ensures p3 == AfterWaits(script, p0, 2 + Waits(flag))
    ensures p3 - p0 == s3 - s0 + 2 + Waits(flag)
    ensures s3 - s0 <= 2 * WAIT_LIMIT + SleepBudget(flag)
  {
    assert Waits(1) == 2 && SleepBudget(1) == 2 * WAIT_LIMIT;
    AfterWaitsAdd(script, p0, 1, 1);
    AfterWaitsAdd(script, p0, 1, 2);
    if flag % 2 != 0 {
      AfterWaitsAdd(script, p0, 3, 1);
    }
  }

  /** Number of waitingForFree calls `set` makes: `flag & 0x01 != 0` in Python
      is `(flag & 1) != 0`, which is `flag % 2 != 0` also for negative flags. */
  function Waits(flag: int): (n: nat)
    ensures 1 <= n <= 2
  {
    if flag % 2 != 0 then 2 else 1
  }

  /** The most sleeps the waits of `set` can take: WAIT_LIMIT per wait. */
  function SleepBudget(flag: int): nat {
    if flag % 2 != 0 then 2 * WAIT_LIMIT else WAIT_LIMIT
  }

  /** A client of the protocol: an out-of-range request is read back clamped,
      e.g. set(ZOOM, 99999) then get(ZOOM) gives 20000. */
  method SetThenGet(f: Focuser, opt: Opt, value: int) returns (read: nat)
    modifies f
    ensures read == Clamp(opt, value)
    ensures value > Info(opt).maxValue ==> read == Info(opt).maxValue
  {
    f.Set(opt, value);
    read := f.Get(opt);
    SetGetRoundTrip(opt, value);
  }
}

=== FILE: pointing.dfy ===
// Camera-space angles to actuator-space angles, and their dispatch to the
// pan-tilt motors (angle2PTZ in detectnet.py; angular_calculation_tester/
// angle_calculator.py holds an identical copy).

module Pointing {
  import opened FocuserDriver

  /** A pointing direction in degrees, as the projection functions give it:
      azimut in ]-180, 180], elevation 90 at the optical axis. */
  datatype Angles = Angles(elevation: real, azimut: real)

  /** A position in the image, in pixels (a detection's centre, or the
      mouse cursor). */
  datatype Pixel = Pixel(x: real, y: real)

  /** The angles of a pixel, by the projection functions get_elevation and
      get_azimut, whose floating-point formulas are not part of this model:
      they come in as parameters, with the frame size folded in. */
  function Project(p: Pixel, elevationOf: (real, real) -> real, azimutOf: (real, real) -> real): Angles {
    Angles(elevationOf(p.x, p.y), azimutOf(p.x, p.y))
  }

  /** The angles of several pixels, in the same order. */
  function ProjectAll(ps: seq<Pixel>, elevationOf: (real, real) -> real, azimutOf: (real, real) -> real): (r: seq<Angles>)
    ensures |r| == |ps|
    decreases |ps|
  {
    if ps == [] then []
    else ProjectAll(ps[..|ps| - 1], elevationOf, azimutOf) + [Project(ps[|ps| - 1], elevationOf, azimutOf)]
  }

  /** The i-th angles are those of the i-th pixel. */
  lemma {:induction false} ProjectAllAt(ps: seq<Pixel>, elevationOf: (real, real) -> real, azimutOf: (real, real) -> real, i: nat)
    requires i < |ps|
    ensures ProjectAll(ps, elevationOf, azimutOf)[i] == Project(ps[i], elevationOf, azimutOf)
    decreases |ps|
  {
    if i < |ps| - 1 {
      ProjectAllAt(ps[..|ps| - 1], elevationOf, azimutOf, i);
    }
  }

  /** Python's int() on a float: truncation toward zero. */
  function Trunc(r: real): (i: int)
    ensures 0.0 <= r ==> 0 <= i && i as real <= r < i as real + 1.0
    ensures r < 0.0 ==> i <= 0 && i as real - 1.0 < r <= i as real
  {
    if r >= 0.0 then r.Floor else -((-r).Floor)
  }

  /** The pan (X) and tilt (Y) angles for a camera-space direction. A target
      with positive azimut is reached by panning to 180 - azimut and tilting
      past the zenith; otherwise the pan is the mirrored azimut and the tilt
      is the elevation. */
  function ToActuator(a: Angles): (xy: (real, real))
    ensures -180.0 < a.azimut <= 180.0 ==> 0.0 <= xy.0 < 180.0
    ensures 0.0 <= a.elevation <= 180.0 ==> 0.0 <= xy.1 <= 180.0
  {
    if a.azimut > 0.0 then (180.0 - a.azimut, 180.0 - a.elevation)
    else (-a.azimut, a.elevation)
  }

  /** Directions half a turn apart in azimut get the same pan; the tilt of
      the one with positive azimut is the other's mirrored about the zenith. */
  lemma OppositeHalvesShareThePan(elevation: real, azimut: real)
    requires 0.0 < azimut <= 180.0
    ensures ToActuator(Angles(elevation, azimut)).0 == ToActuator(Angles(elevation, azimut - 180.0)).0
    ensures ToActuator(Angles(elevation, azimut)).1 == 180.0 - ToActuator(Angles(elevation, azimut - 180.0)).1
  {
  }

  lemma ToActuatorExamples()
    ensures ToActuator(Angles(30.0, 45.0)) == (135.0, 150.0)
    ensures ToActuator(Angles(30.0, -45.0)) == (45.0, 30.0)
    ensures ToActuator(Angles(90.0, 0.0)) == (0.0, 90.0)
  {
  }

  /** The integer values `set` receives for MOTOR_X and MOTOR_Y. */
  function MotorValues(a: Angles): (v: (int, int))
    ensures -180.0 < a.azimut <= 180.0 ==> 0 <= v.0 < 180
  {
    (Trunc(ToActuator(a).0), Trunc(ToActuator(a).1))
  }

  /** For an azimut in ]-180, 180] the pan value is already in MOTOR_X's
      range, so clamping never alters it. */
  lemma PanIsNeverClamped(a: Angles)
    requires -180.0 < a.azimut <= 180.0
    ensures Clamp(MotorX, MotorValues(a).0) == MotorValues(a).0
  {
  }

  /** The two word writes of one dispatch: MOTOR_X first, then MOTOR_Y. */
  function DispatchWrites(a: Angles): (ws: seq<WordWrite>)
    ensures |ws| == 2
    ensures ws[0].reg == Info(MotorX).regAddr && ws[1].reg == Info(MotorY).regAddr
  {
    [WordWrite(Info(MotorX).regAddr, Encode(Clamp(MotorX, MotorValues(a).0))),
     WordWrite(Info(MotorY).regAddr, Encode(Clamp(MotorY, MotorValues(a).1)))]
  }

  /** Reading the motor registers back after a dispatch gives the truncated
      angles, clamped into [0, 180]; the pan is not clamped at all when the
      azimut lies in ]-180, 180]. */
  lemma {:induction false} DispatchReadsBack(a: Angles)
    ensures Decode(DispatchWrites(a)[0].word) == Clamp(MotorX, MotorValues(a).0)
    ensures Decode(DispatchWrites(a)[1].word) == Clamp(MotorY, MotorValues(a).1)
    ensures -180.0 < a.azimut <= 180.0 ==> Decode(DispatchWrites(a)[0].word) == MotorValues(a).0
  {
    SetGetRoundTrip(MotorX, MotorValues(a).0);
    SetGetRoundTrip(MotorY, MotorValues(a).1);
  }

  /** The word writes of a sequence of dispatches, in order. */
  function AllDispatchWrites(targets: seq<Angles>): (ws: seq<WordWrite>)
    ensures |ws| == 2 * |targets|
    decreases |targets|
  {
    if targets == [] then []
    else AllDispatchWrites(targets[..|targets| - 1]) + DispatchWrites(targets[|targets| - 1])
  }

  /** One more dispatch appends its two writes. */
  lemma AllDispatchWritesStep(targets: seq<Angles>, t: Angles)
    ensures AllDispatchWrites(targets + [t]) == AllDispatchWrites(targets) + DispatchWrites(t)
  {
    assert (targets + [t])[..|targets|] == targets;
  }

  /** A log holding a prefix and the writes of some dispatches, extended by
      the writes of one more optional dispatch. */
  lemma {:induction false} DispatchLogStep(log: seq<WordWrite>, log0: seq<WordWrite>, sent: seq<Angles>, t: Angles, due: bool)
    requires log == log0 + AllDispatchWrites(sent)
    ensures log + (if due then DispatchWrites(t) else []) == log0 + AllDispatchWrites(sent + (if due then [t] else []))
  {
    if due {
      AllDispatchWritesStep(sent, t);
      assert log0 + AllDispatchWrites(sent) + DispatchWrites(t) == log0 + (AllDispatchWrites(sent) + DispatchWrites(t));
    } else {
      assert sent + [] == sent;
      assert log + [] == log;
    }
  }

  /** Applying a dispatch's writes sets MOTOR_X, then MOTOR_Y. */
  lemma {:induction false} ApplyDispatch(regs: map<nat, BusWord>, a: Angles)
    ensures ApplyWrites(regs, DispatchWrites(a))
              == regs[DispatchWrites(a)[0].reg := DispatchWrites(a)[0].word][DispatchWrites(a)[1].reg := DispatchWrites(a)[1].word]
  {
    var ws := DispatchWrites(a);
    assert ws[..1][..0] == [] && ws[..1][0] == ws[0];
    assert ApplyWrites(regs, ws[..1]) == regs[ws[0].reg := ws[0].word];
  }

  /** The register map follows the log: one more optional dispatch applies
      its writes to the map that holds the earlier ones. */
  lemma {:induction false} DispatchRegsStep(regs: map<nat, BusWord>, regs0: map<nat, BusWord>, sent: seq<Angles>, t: Angles, due: bool)
    requires regs == ApplyWrites(regs0, AllDispatchWrites(sent))
    ensures ApplyWrites(regs, if due then DispatchWrites(t) else [])
              == ApplyWrites(regs0, AllDispatchWrites(sent + (if due then [t] else [])))
  {
    if due {
      AllDispatchWritesStep(sent, t);
      ApplyWritesAppend(regs0, AllDispatchWrites(sent), DispatchWrites(t));
    } else {
      assert sent + [] == sent;
    }
  }

  /** Dispatches write only to the pan and tilt registers. */
  lemma {:induction false} DispatchesTouchOnlyMotors(targets: seq<Angles>)
    ensures forall w :: w in AllDispatchWrites(targets) ==>
              w.reg == Info(MotorX).regAddr || w.reg == Info(MotorY).regAddr
    decreases |targets|
  {
    if targets != [] {
      DispatchesTouchOnlyMotors(targets[..|targets| - 1]);
    }
  }

  /** Registers other than MOTOR_X and MOTOR_Y keep their contents, or their
      absence, through any number of dispatches. */
  lemma {:induction false} DispatchesLeaveOtherRegisters(regs: map<nat, BusWord>, targets: seq<Angles>, reg: nat)
    requires reg != Info(MotorX).regAddr && reg != Info(MotorY).regAddr
    ensures reg in ApplyWrites(regs, AllDispatchWrites(targets)) <==> reg in regs
    ensures reg in regs ==> ApplyWrites(regs, AllDispatchWrites(targets))[reg] == regs[reg]
  {
    var ws := AllDispatchWrites(targets);
    DispatchesTouchOnlyMotors(targets);
    forall i | 0 <= i < |ws|
      ensures ws[i].reg != reg
    {
      assert ws[i] in ws;
    }
    ApplyWritesElsewhere(regs, ws, reg);
  }

  /** After a run of dispatches, the motor registers hold the last target's
      pan and tilt words: each dispatch overwrites both. */
  lemma {:induction false} LastTargetWins(regs: map<nat, BusWord>, targets: seq<Angles>)
    requires targets != []
    ensures var r := ApplyWrites(regs, AllDispatchWrites(targets));
            var last := DispatchWrites(targets[|targets| - 1]);
            Info(MotorX).regAddr in r && r[Info(MotorX).regAddr] == last[0].word &&
            Info(MotorY).regAddr in r && r[Info(MotorY).regAddr] == last[1].word
  {
    var k := |targets| - 1;
    var before := AllDispatchWrites(targets[..k]);
    ApplyWritesAppend(regs, before, DispatchWrites(targets[k]));
    ApplyDispatch(ApplyWrites(regs, before), targets[k]);
  }

  /** The busy-register reads taken before the two writes of one dispatch
      that starts after read `from`: MOTOR_X is written after one wait, and
      MOTOR_Y after two more, the wait that ends MOTOR_X's `set` and the one
      that begins MOTOR_Y's. */
  function DispatchStamps(script: seq<BusWord>, from: nat): seq<nat> {
    [AfterWaits(script, from, 1), AfterWaits(script, from, 3)]
  }

  /** The stamps of the writes of `n` dispatches in a row, the first
      starting after read `from`: with four waits to a dispatch, write i
      follows 2 * i + 1 waits. */
  function AllDispatchStamps(script: seq<BusWord>, from: nat, n: nat): seq<nat> {
    seq(2 * n, i requires 0 <= i => AfterWaits(script, from, 2 * i + 1))
  }

  /** Each write of a run of dispatches comes at least two busy reads after
      the one before it: between two writes lie two whole waits, the one
      that ends the earlier `set` and the one that begins the later. */
  lemma WritesWaitedApart(script: seq<BusWord>, from: nat, n: nat, i: nat, j: nat)
    requires i < j < 2 * n
    ensures AllDispatchStamps(script, from, n)[i] + 2 * (j - i) <= AllDispatchStamps(script, from, n)[j]
  {
    AfterWaitsGrows(script, from, 2 * i + 1, 2 * j + 1);
  }

  /** One more dispatch adds its two stamps, as DispatchStamps gives them,
      to the stamps of a run. */
  lemma {:induction false} AllDispatchStampsStep(script: seq<BusWord>, from: nat, n: nat)
    ensures AllDispatchStamps(script, from, n + 1)
            == AllDispatchStamps(script, from, n) + DispatchStamps(script, AfterWaits(script, from, 4 * n))
  {
    var before, last := AllDispatchStamps(script, from, n), DispatchStamps(script, AfterWaits(script, from, 4 * n));
    AfterWaitsAdd(script, from, 4 * n, 1);
    AfterWaitsAdd(script, from, 4 * n, 3);
    forall i | 0 <= i < 2 * n + 2
      ensures AllDispatchStamps(script, from, n + 1)[i] == (before + last)[i]
    {
      if i < 2 * n {
        assert (before + last)[i] == before[i];
      } else if i == 2 * n {
        assert (before + last)[i] == last[0];
        assert 2 * i + 1 == 4 * n + 1;
      } else {
        assert (before + last)[i] == last[1];
        assert 2 * i + 1 == 4 * n + 3;
      }
    }
  }

  /** The stamps and the read count after `n` dispatches, extended by one
      more dispatch. */
  lemma {:induction false} DispatchWaitsStep(script: seq<BusWord>, from: nat, n: nat,
                                             stamps: seq<nat>, stamps0: seq<nat>, polls: nat, stamps': seq<nat>, polls': nat)
    requires polls == AfterWaits(script, from, 4 * n) && stamps == stamps0 + AllDispatchStamps(script, from, n)
    requires stamps' == stamps + DispatchStamps(script, polls) && polls' == AfterWaits(script, polls, 4)
    ensures polls' == AfterWaits(script, from, 4 * (n + 1))
    ensures stamps' == stamps0 + AllDispatchStamps(script, from, n + 1)
  {
    AfterWaitsAdd(script, from, 4 * n, 4);
    assert 4 * n + 4 == 4 * (n + 1);
    AllDispatchStampsStep(script, from, n);
    AppendAssociates(stamps0, AllDispatchStamps(script, from, n), DispatchStamps(script, polls));
  }

  lemma AppendAssociates<T>(a: seq<T>, b: seq<T>, c: seq<T>)
    ensures a + b + c == a + (b + c)
  {
  }

  /** A control loop's device state `d` after it sent `sent`, starting from
      `d0`: the log and the registers hold exactly the dispatches' writes,
      each write stamped as DispatchStamps says, and each dispatch took four
      waits of at most WAIT_LIMIT sleeps each. */
  ghost predicate DeviceAfter(script: seq<BusWord>, d: Device, d0: Device, sent: seq<Angles>) {
    && d.log == d0.log + AllDispatchWrites(sent)
    && d.regs == ApplyWrites(d0.regs, AllDispatchWrites(sent))
    && d.stamps == d0.stamps + AllDispatchStamps(script, d0.polls, |sent|)
    && d.polls == AfterWaits(script, d0.polls, 4 * |sent|)
    && d.polls - d0.polls == d.sleeps - d0.sleeps + 4 * |sent|
    && d.sleeps - d0.sleeps <= 4 * WAIT_LIMIT * |sent|
  }

  /** What one dispatch of `t` does to the device, as Angle2PTZ states it. */
  ghost predicate DispatchEffect(script: seq<BusWord>, d: Device, t: Angles, d': Device) {
    && d'.log == d.log + DispatchWrites(t) && d'.regs == ApplyWrites(d.regs, DispatchWrites(t))
    && d'.stamps == d.stamps + DispatchStamps(script, d.polls) && d'.polls == AfterWaits(script, d.polls, 4)
    && d'.polls - d.polls == d'.sleeps - d.sleeps + 4 && d'.sleeps - d.sleeps <= 4 * WAIT_LIMIT
  }

  /** One more loop iteration, with or without a dispatch as Angle2PTZ
      states it, keeps DeviceAfter. */
  lemma {:induction false} DeviceStep(script: seq<BusWord>, d: Device, d0: Device, sent: seq<Angles>, t: Angles, due: bool, d': Device)
    requires DeviceAfter(script, d, d0, sent)
    requires due ==> DispatchEffect(script, d, t, d')
    requires !due ==> d' == d
    ensures DeviceAfter(script, d', d0, sent + (if due then [t] else []))
  {
    DispatchLogStep(d.log, d0.log, sent, t, due);
    DispatchRegsStep(d.regs, d0.regs, sent, t, due);
    if due {
      assert d'.log == d.log + (if due then DispatchWrites(t) else []);
      assert |sent + [t]| == |sent| + 1;
      assert 4 * WAIT_LIMIT * |sent + [t]| == 4 * WAIT_LIMIT * |sent| + 4 * WAIT_LIMIT;
      DispatchWaitsStep(script, d0.polls, |sent|, d.stamps, d0.stamps, d.polls, d'.stamps, d'.polls);
    } else {
      assert sent + [] == sent;
      assert d.log + [] == d.log;
    }
  }

  /** The write of MODE := 1 that precedes a control loop. */
  function ModeOn(): (w: WordWrite)
    ensures Decode(w.word) == 1
  {
    EncodeDecode(1);
    WordWrite(Info(Mode).regAddr, Encode(1))
  }

  /** The device state of a whole control loop: MODE is set to 1 (as `set`
      with its default flag states it), then the loop's dispatches follow. */
  lemma {:induction false} ModeThenDispatches(script: seq<BusWord>, d0: Device, d1: Device, d: Device, sent: seq<Angles>)
    requires d1.regs == d0.regs[Info(Mode).regAddr := Encode(Clamp(Mode, 1))]
    requires d1.log == d0.log + [WordWrite(Info(Mode).regAddr, Encode(Clamp(Mode, 1)))]
    requires d1.stamps == d0.stamps + [AfterWaits(script, d0.polls, 1)]
    requires d1.polls == AfterWaits(script, d0.polls, Waits(1))
    requires d1.polls - d0.polls == d1.sleeps - d0.sleeps + Waits(1) && d1.sleeps - d0.sleeps <= SleepBudget(1)
    requires DeviceAfter(script, d, d1, sent)
    ensures d.log == d0.log + [ModeOn()] + AllDispatchWrites(sent)
    ensures d.regs == ApplyWrites(d0.regs, [ModeOn()] + AllDispatchWrites(sent))
    ensures d.stamps == d0.stamps + [AfterWaits(script, d0.polls, 1)] + AllDispatchStamps(script, AfterWaits(script, d0.polls, 2), |sent|)
    ensures d.polls == AfterWaits(script, d0.polls, 2 + 4 * |sent|)
    ensures d.polls - d0.polls == d.sleeps - d0.sleeps + 2 + 4 * |sent|
    ensures d.sleeps - d0.sleeps <= 2 * WAIT_LIMIT + 4 * WAIT_LIMIT * |sent|
  {
    assert Waits(1) == 2 && SleepBudget(1) == 2 * WAIT_LIMIT;
    assert [ModeOn()][..0] == [];
    assert d1.regs == ApplyWrites(d0.regs, [ModeOn()]);
    ApplyWritesAppend(d0.regs, [ModeOn()], AllDispatchWrites(sent));
    ModeThenDispatchWaits(script, d0.polls, d1.polls, d.polls, 4 * |sent|);
  }

  lemma {:induction false} ModeThenDispatchWaits(script: seq<BusWord>, p0: nat, p1: nat, p: nat, n: nat)
    requires p1 == AfterWaits(script, p0, 2) && p == AfterWaits(script, p1, n)
    ensures p == AfterWaits(script, p0, 2 + n)
  {
    AfterWaitsAdd(script, p0, 2, n);
  }

  /** After MODE is set to 1 and any number of dispatches, MODE still reads
      1: dispatches never touch its register. */
  lemma {:induction false} ModeStaysOn(regs: map<nat, BusWord>, targets: seq<Angles>)
    ensures var r := ApplyWrites(regs, [ModeOn()] + AllDispatchWrites(targets));
            Info(Mode).regAddr in r && Decode(r[Info(Mode).regAddr]) == 1
  {
    var mode := ApplyWrites(regs, [ModeOn()]);
    assert [ModeOn()][..0] == [];
    ApplyWritesAppend(regs, [ModeOn()], AllDispatchWrites(targets));
    RegistersDistinct(Mode, MotorX);
    RegistersDistinct(Mode, MotorY);
    DispatchesLeaveOtherRegisters(mode, targets, Info(Mode).regAddr);
  }

  /** angle2PTZ: computes X and Y by the branch rule, then sets MOTOR_X and
      MOTOR_Y, each set waiting for the device before and after. */
  method Angle2PTZ(focuser: Focuser, elevation: real, azimut: real)
    modifies focuser
    ensures focuser.log == old(focuser.log) + DispatchWrites(Angles(elevation, azimut))
    ensures focuser.regs == ApplyWrites(old(focuser.regs), DispatchWrites(Angles(elevation, azimut)))
    ensures focuser.stamps == old(focuser.stamps) + DispatchStamps(focuser.script, old(focuser.polls))
    ensures focuser.polls == AfterWaits(focuser.script, old(focuser.polls), 4)
    ensures focuser.polls - old(focuser.polls) == focuser.sleeps - old(focuser.sleeps) + 4
    ensures focuser.sleeps - old(focuser.sleeps) <= 4 * WAIT_LIMIT
  {
    var xAngle, yAngle := azimut, elevation;
    if azimut > 0.0 {
      yAngle := 180.0 - elevation;
      xAngle := 180.0 - azimut;
    } else {
      xAngle := azimut * -1.0;
    }
    assert (Trunc(xAngle), Trunc(yAngle)) == MotorValues(Angles(elevation, azimut));
    assert Waits(1) == 2;
    focuser.Set(MotorX, Trunc(xAngle));
    ghost var (p2, stamps2) := (focuser.polls, focuser.stamps);
    focuser.Set(MotorY, Trunc(yAngle));
    ApplyDispatch(old(focuser.regs), Angles(elevation, azimut));
    TwoSetsWaits(focuser.script, old(focuser.polls), p2, focuser.polls, old(focuser.stamps), stamps2, focuser.stamps);
  }

  /** The stamps and the read count of two `set` calls in a row, each with
      its default flag: two waits each, a write after the first of them. */
  lemma {:induction false} TwoSetsWaits(script: seq<BusWord>, p0: nat, p2: nat, p4: nat,
                                        stamps0: seq<nat>, stamps2: seq<nat>, stamps4: seq<nat>)
    requires p2 == AfterWaits(script, p0, 2) && p4 == AfterWaits(script, p2, 2)
    requires stamps2 == stamps0 + [AfterWaits(script, p0, 1)] && stamps4 == stamps2 + [AfterWaits(script, p2, 1)]
    ensures p4 == AfterWaits(script, p0, 4)
    ensures stamps4 == stamps0 + DispatchStamps(script, p0)
  {
    AfterWaitsAdd(script, p0, 2, 1);
    AfterWaitsAdd(script, p0, 2, 2);
  }
}

=== FILE: tester.dfy ===
// The control loop of angular_calculation_tester/angle_calculator.py: the
// mouse cursor stands in for a detection, its angles are computed on every
// frame and sent to the actuator on every CYCLE_LOOP-th one.

module AngleCalculator {
  import opened FocuserDriver
  import opened Pointing
  import opened Throttle

  const CYCLE_LOOP: nat := 3

  /** The targets the loop sends for the cursor positions it has seen. */
  function Sent(cursor: seq<Pixel>, ptz: bool, elevationOf: (real, real) -> real, azimutOf: (real, real) -> real): seq<Angles> {
    Selected(ProjectAll(cursor, elevationOf, azimutOf), CYCLE_LOOP, ptz)
  }

  lemma SentStep(cursor: seq<Pixel>, p: Pixel, ptz: bool, elevationOf: (real, real) -> real, azimutOf: (real, real) -> real)
    ensures Sent(cursor + [p], ptz, elevationOf, azimutOf) == Sent(cursor, ptz, elevationOf, azimutOf)
              + (if ptz && (|cursor| + 1) % CYCLE_LOOP == 0 then [Project(p, elevationOf, azimutOf)] else [])
  {
    var all := cursor + [p];
    assert all[..|cursor|] == cursor;
    var angles := ProjectAll(all, elevationOf, azimutOf);
    assert angles[..|cursor|] == ProjectAll(cursor, elevationOf, azimutOf);
  }

  /** With PTZ support on, the j-th target sent is the cursor's direction at
      frame (j + 1) * CYCLE_LOOP; with it off, nothing is sent. */
  lemma SentExactly(cursor: seq<Pixel>, ptz: bool, elevationOf: (real, real) -> real, azimutOf: (real, real) -> real)
    ensures !ptz ==> Sent(cursor, ptz, elevationOf, azimutOf) == []
    ensures ptz ==> |Sent(cursor, ptz, elevationOf, azimutOf)| == |cursor| / CYCLE_LOOP
    ensures ptz ==> forall j :: 0 <= j < |cursor| / CYCLE_LOOP ==>
              j * CYCLE_LOOP + CYCLE_LOOP <= |cursor| &&
              Sent(cursor, ptz, elevationOf, azimutOf)[j] == Project(cursor[j * CYCLE_LOOP + CYCLE_LOOP - 1], elevationOf, azimutOf)
  {
    var angles := ProjectAll(cursor, elevationOf, azimutOf);
    if ptz {
      SelectedExactly(angles, CYCLE_LOOP);
      forall j | 0 <= j < |cursor| / CYCLE_LOOP
        ensures Sent(cursor, ptz, elevationOf, azimutOf)[j] == Project(cursor[j * CYCLE_LOOP + CYCLE_LOOP - 1], elevationOf, azimutOf)
      {
        ProjectAllAt(cursor, elevationOf, azimutOf, j * CYCLE_LOOP + CYCLE_LOOP - 1);
      }
    } else {
      SelectedDisabled(angles, CYCLE_LOOP);
    }
  }

  /** The cursor loop's invariant after `i` frames: the counter and the
      targets sent so far. */
  ghost predicate SentSoFar(cursor: seq<Pixel>, i: nat, sent: seq<Angles>, cycle: int, ptz: bool,
                            elevationOf: (real, real) -> real, azimutOf: (real, real) -> real)
    requires i <= |cursor|
  {
    && cycle == i % CYCLE_LOOP
    && sent == Sent(cursor[..i], ptz, elevationOf, azimutOf)
  }

  /** One more frame keeps the cursor loop's invariant: on a due frame with
      PTZ support on, the cursor's direction is sent; otherwise nothing
      changes but the counter. */
  lemma {:induction false} CursorFrameKeeps(cursor: seq<Pixel>, i: nat, sent: seq<Angles>, ptz: bool,
                                            elevationOf: (real, real) -> real, azimutOf: (real, real) -> real)
    requires i < |cursor|
    requires SentSoFar(cursor, i, sent, i % CYCLE_LOOP, ptz, elevationOf, azimutOf)
    ensures var t := Project(cursor[i], elevationOf, azimutOf);
            var due := ptz && (i + 1) % CYCLE_LOOP == 0;
            SentSoFar(cursor, i + 1, sent + (if due then [t] else []), (i + 1) % CYCLE_LOOP, ptz, elevationOf, azimutOf)
  {
    assert cursor[..i + 1] == cursor[..i] + [cursor[i]];
    SentStep(cursor[..i], cursor[i], ptz, elevationOf, azimutOf);
  }

  /** The `while running` loop, over the cursor positions of the frames
      drawn until the window is closed: each frame's cursor angles are
      computed, the counter is stepped, and on a due frame with PTZ support
      on the angles are dispatched. */
  method RunCursor(focuser: Focuser, counter: CycleCounter, cursor: seq<Pixel>, ptz: bool,
                   elevationOf: (real, real) -> real, azimutOf: (real, real) -> real)
    returns (sent: seq<Angles>)
    requires counter.Valid() && counter.cycleLoop == CYCLE_LOOP && counter.cycle == 0
    modifies focuser, counter
    ensures sent == Sent(cursor, ptz, elevationOf, azimutOf)
    ensures focuser.log == old(focuser.log) + AllDispatchWrites(sent)
    ensures focuser.regs == ApplyWrites(old(focuser.regs), AllDispatchWrites(sent))
    ensures focuser.stamps == old(focuser.stamps) + AllDispatchStamps(focuser.script, old(focuser.polls), |sent|)
    ensures focuser.polls == AfterWaits(focuser.script, old(focuser.polls), 4 * |sent|)
    ensures focuser.polls - old(focuser.polls) == focuser.sleeps - old(focuser.sleeps) + 4 * |sent|
    ensures focuser.sleeps - old(focuser.sleeps) <= 4 * WAIT_LIMIT * |sent|
  {
    ghost var start := Device(focuser.regs, focuser.log, focuser.stamps, focuser.polls, focuser.sleeps);
    sent := [];
    for i := 0 to |cursor|
      invariant counter.Valid() && counter.cycleLoop == CYCLE_LOOP
      invariant SentSoFar(cursor, i, sent, counter.cycle, ptz, elevationOf, azimutOf)
      invariant DeviceAfter(focuser.script, Device(focuser.regs, focuser.log, focuser.stamps, focuser.polls, focuser.sleeps), start, sent)
    {
      var elevation := elevationOf(cursor[i].x, cursor[i].y);
      var azimut := azimutOf(cursor[i].x, cursor[i].y);
      CursorFrameKeeps(cursor, i, sent, ptz, elevationOf, azimutOf);
      ghost var d := Device(focuser.regs, focuser.log, focuser.stamps, focuser.polls, focuser.sleeps);
      var due := counter.Tick();
      CycleFollowsCount(i, CYCLE_LOOP);
      if due && ptz {
        Angle2PTZ(focuser, elevation, azimut);
      }
      DeviceStep(focuser.script, d, start, sent, Angles(elevation, azimut), due && ptz, Device(focuser.regs, focuser.log, focuser.stamps, focuser.polls, focuser.sleeps));
      if due && ptz {
        sent := sent + [Angles(elevation, azimut)];
      }
    }
    assert cursor[..|cursor|] == cursor;
  }

  /** The script: MODE is set to 1 once, with a fresh counter, before the
      loop starts. */
  method TesterLoop(focuser: Focuser, cursor: seq<Pixel>, ptz: bool,
                    elevationOf: (real, real) -> real, azimutOf: (real, real) -> real)
    returns (sent: seq<Angles>)
    modifies focuser
    ensures sent == Sent(cursor, ptz, elevationOf, azimutOf)
    ensures focuser.log == old(focuser.log) + [ModeOn()] + AllDispatchWrites(sent)
    ensures focuser.regs == ApplyWrites(old(focuser.regs), [ModeOn()] + AllDispatchWrites(sent))
    ensures focuser.stamps == old(focuser.stamps) + [AfterWaits(focuser.script, old(focuser.polls), 1)]
                              + AllDispatchStamps(focuser.script, AfterWaits(focuser.script, old(focuser.polls), 2), |sent|)
    ensures focuser.polls == AfterWaits(focuser.script, old(focuser.polls), 2 + 4 * |sent|)
    ensures focuser.polls - old(focuser.polls) == focuser.sleeps - old(focuser.sleeps) + 2 + 4 * |sent|
    ensures focuser.sleeps - old(focuser.sleeps) <= 2 * WAIT_LIMIT + 4 * WAIT_LIMIT * |sent|
  {
    ghost var start := Device(focuser.regs, focuser.log, focuser.stamps, focuser.polls, focuser.sleeps);
    focuser.Set(Mode, 0x0001);
    ghost var afterMode := Device(focuser.regs, focuser.log, focuser.stamps, focuser.polls, focuser.sleeps);
    var counter := new CycleCounter(CYCLE_LOOP);
    sent := RunCursor(focuser, counter, cursor, ptz, elevationOf, azimutOf);
    ModeThenDispatches(focuser.script, start, afterMode, Device(focuser.regs, focuser.log, focuser.stamps, focuser.polls, focuser.sleeps), sent);
  }
}

=== FILE: throttle.dfy ===
// The CYCLE / CYCLE_LOOP dispatch throttle of the two control loops
// (detectnet.py: CYCLE_LOOP = 10; angular_calculation_tester/
// angle_calculator.py: CYCLE_LOOP = 3).

module Throttle {

  /** The loop's CYCLE counter, reset to 0 whenever it reaches CYCLE_LOOP. */
  class CycleCounter {
    const cycleLoop: nat
    var cycle: int

    ghost predicate Valid()
      reads this
    {
      cycleLoop >= 1 && 0 <= cycle < cycleLoop
    }

    constructor (cycleLoop: nat)
      requires cycleLoop >= 1
      ensures Valid() && this.cycleLoop == cycleLoop && cycle == 0
    {
      this.cycleLoop := cycleLoop;
      cycle := 0;
    }

    /** `CYCLE += 1; if CYCLE >= CYCLE_LOOP: CYCLE = 0` — and whether this
        iteration may dispatch: exactly when the counter wrapped. */
    method Tick() returns (due: bool)
      requires Valid()
      modifies this`cycle
      ensures Valid()
      ensures due <==> old(cycle) + 1 == cycleLoop
      ensures cycle == (if due then 0 else old(cycle) + 1)
    {
      cycle := cycle + 1;
      due := cycle >= cycleLoop;
      if due {
        cycle := 0;
      }
    }
  }

  /** After `count` steps from 0 the counter holds `count % cycleLoop`, one
      more step holds `(count + 1) % cycleLoop`, and that step wraps exactly
      when `count + 1` is a multiple of `cycleLoop`. */
  lemma {:induction false} CycleFollowsCount(count: nat, cycleLoop: nat)
    requires cycleLoop >= 1
    ensures (count % cycleLoop + 1 == cycleLoop) <==> (count + 1) % cycleLoop == 0
    ensures (if count % cycleLoop + 1 == cycleLoop then 0 else count % cycleLoop + 1) == (count + 1) % cycleLoop
  {
    ModStep(count, cycleLoop);
  }

  /** The items at the iterations a throttle of length `cycleLoop` lets
      through (the cycleLoop-th, the 2*cycleLoop-th, ...), none when
      `enabled` is off. */
  function Selected<T>(items: seq<T>, cycleLoop: nat, enabled: bool): seq<T>
    requires cycleLoop >= 1
    decreases |items|
  {
    if items == [] then []
    else
      var k := |items|;
      Selected(items[..k - 1], cycleLoop, enabled)
        + (if enabled && k % cycleLoop == 0 then [items[k - 1]] else [])
  }

  /** With dispatching enabled, one item in every cycleLoop is selected. */
  lemma {:induction false} SelectedLength<T>(items: seq<T>, cycleLoop: nat)
    requires cycleLoop >= 1
    ensures |Selected(items, cycleLoop, true)| == |items| / cycleLoop
    decreases |items|
  {
    if items != [] {
      SelectedLength(items[..|items| - 1], cycleLoop);
      ModStep(|items| - 1, cycleLoop);
    } else {
      DivModUnique(0, cycleLoop, 0, 0);
    }
  }

  /** The j-th selected item (from 0) is the item of iteration
      (j + 1) * cycleLoop (from 1). */
  lemma {:induction false} SelectedAt<T>(items: seq<T>, cycleLoop: nat, j: nat)
    requires cycleLoop >= 1 && j < |items| / cycleLoop
    ensures j * cycleLoop + cycleLoop <= |items|
    ensures |Selected(items, cycleLoop, true)| == |items| / cycleLoop
    ensures Selected(items, cycleLoop, true)[j] == items[j * cycleLoop + cycleLoop - 1]
    decreases |items|
  {
    var k := |items|;
    var prefix := items[..k - 1];
    var sel := Selected(prefix, cycleLoop, true);
    MulBound(j, k, cycleLoop);
    SelectedLength(items, cycleLoop);
    SelectedLength(prefix, cycleLoop);
    if j < (k - 1) / cycleLoop {
      SelectedAt(prefix, cycleLoop, j);
      assert Selected(items, cycleLoop, true) == sel + (if k % cycleLoop == 0 then [items[k - 1]] else []);
    } else {
      LastOfCycle(k, cycleLoop, j);
      assert Selected(items, cycleLoop, true) == sel + [items[k - 1]];
    }
  }

  /** When the j-th selected iteration is not among the first k - 1, it is
      the k-th, which then closes a cycle. */
  lemma LastOfCycle(k: nat, n: nat, j: nat)
    requires n >= 1 && k >= 1 && (k - 1) / n <= j < k / n
    ensures k % n == 0 && (k - 1) / n == j && j * n + n == k
  {
    ModStep(k - 1, n);
    var q, r := (k - 1) / n, (k - 1) % n;
    assert k - 1 == q * n + r;
  }

  /** With dispatching enabled, exactly the items of iterations cycleLoop,
      2 * cycleLoop, ... are selected, in order. */
  lemma SelectedExactly<T>(items: seq<T>, cycleLoop: nat)
    requires cycleLoop >= 1
    ensures |Selected(items, cycleLoop, true)| == |items| / cycleLoop
    ensures forall j :: 0 <= j < |items| / cycleLoop ==>
              j * cycleLoop + cycleLoop <= |items| &&
              Selected(items, cycleLoop, true)[j] == items[j * cycleLoop + cycleLoop - 1]
  {
    SelectedLength(items, cycleLoop);
    forall j | 0 <= j < |items| / cycleLoop
      ensures j * cycleLoop + cycleLoop <= |items|
      ensures Selected(items, cycleLoop, true)[j] == items[j * cycleLoop + cycleLoop - 1]
    {
      SelectedAt(items, cycleLoop, j);
    }
  }

  // Arithmetic on Euclidean division by a positive cycle length.

  lemma MulSign(x: int, n: int)
    requires n > 0
    ensures x >= 1 ==> x * n >= n
    ensures x <= -1 ==> x * n <= -n
  {
    if x >= 1 {
      assert x * n == (x - 1) * n + n;
      assert (x - 1) * n >= 0;
    }
    if x <= -1 {
      assert x * n == -((-x - 1) * n) - n;
      assert (-x - 1) * n >= 0;
    }
  }

  /** Quotient and remainder are the only ones with a remainder in [0, n). */
  lemma DivModUnique(a: int, n: int, q: int, r: int)
    requires n > 0 && 0 <= r < n && a == q * n + r
    ensures a / n == q && a % n == r
  {
    var q0, r0 := a / n, a % n;
    assert a == q0 * n + r0;
    assert (q - q0) * n == r0 - r;
    MulSign(q - q0, n);
  }

  /** One more iteration: the remainder steps up, or wraps to 0 while the
      quotient steps up. */
  lemma ModStep(t: nat, n: nat)
    requires n >= 1
    ensures t % n + 1 < n ==> (t + 1) % n == t % n + 1 && (t + 1) / n == t / n
    ensures t % n + 1 == n ==> (t + 1) % n == 0 && (t + 1) / n == t / n + 1
  {
    var q, r := t / n, t % n;
    if r + 1 < n {
      DivModUnique(t + 1, n, q, r + 1);
    } else {
      assert t + 1 == (q + 1) * n + 0;
      DivModUnique(t + 1, n, q + 1, 0);
    }
  }

  lemma MulBound(j: nat, k: nat, n: nat)
    requires n >= 1 && j < k / n
    ensures j * n + n <= k
  {
    var q := k / n;
    assert k == q * n + k % n;
    MulSign(q - (j + 1) + 1, n);
    assert (q - (j + 1) + 1) * n == q * n - j * n;
  }

  /** With dispatching disabled nothing is ever selected. */
  lemma {:induction false} SelectedDisabled<T>(items: seq<T>, cycleLoop: nat)
    requires cycleLoop >= 1
    ensures Selected(items, cycleLoop, false) == []
    decreases |items|
  {
    if items != [] {
      SelectedDisabled(items[..|items| - 1], cycleLoop);
    }
  }
}
